=== FILE: README.md ===
# Bike-race party game: lobby, race progress and route helpers in Dafny

This project models the stateful and arithmetic core of a browser multiplayer
race game and proves properties of it. Players join a shared lobby and each
claims a racer from a catalogue. The host then starts a race, and every peer
animates it on a map. The model covers three parts:

- **Lobby** (`lobby.dfy`, from `src/App.jsx`): the shared `racerChoices` table
  from player id to racer record. It covers the toggle that assigns or
  releases a racer, the "is this racer taken" test, readiness of the roster,
  and the host-gated `raceStarted` / local `localRaceStarted` flags. The table
  and the flags are fields of the class `LobbyState`. `HandleSelectRacer` is
  proved against the function `SelectRacer`; the flag methods state each
  flag's new value in terms of the old state.
- **Race screen** (`race_screen.dfy`, from `src/components/RaceScreen.jsx`):
  - the time-based progress of a racer, `elapsed * speed * 0.1` capped at 1;
  - the nearest-sample lookup that places a marker on the resampled route;
  - the active-racer filter and the leaderboard, a stable sort by progress,
    largest first;
  - the host-gated `startRace` / `resetRace` transitions and the host-only,
    initialise-once racer-settings effect. These work on the fields
    `status`, `startTime` and `settings` of the class `RaceSession`.
- **Route helpers** (`route_calculations.dfy`, from
  `src/utils/routeCalculations.js`): the race-time estimate and its
  formatted text, percent-based interpolation along a route, the route
  centre, and the loop that thins a route. The thinning loop takes the
  distance between two points as a function parameter. A reader for the
  estimate's text (`ReadDuration`, not part of the game) states what the
  text denotes.

Supporting modules:

- `wrappers.dfy`: `Option`, standing for the source's `null`.
- `records.dfy`: the `Player` and `Racer` records.
- `int_text.dfy`: decimal text of integers, as a template literal writes them,
  with a reader used to state round trips.

Coordinates and progress are exact `real`s, not IEEE doubles. Timestamps are
integer milliseconds. Three outside inputs become method and function
parameters:

- the clock reading `Date.now()` (`now`; one reading per racer in the
  leaderboard, because each progress computation reads the clock again);
- the random draws `Math.random()` (`randoms`, each in `[0, 1)`);
- the host test `isHost()` (`isHost`).

JavaScript truthiness is written out where the code relies on it:

- a start time of `null` or `0` counts as unset;
- a player id of `undefined` or `""` counts as missing;
- a racer choice is active when one of `selected`, `isSelected`, `racer` or a
  non-empty `color` holds.

JavaScript's `Math.round`, `Math.floor` and truncating `%` are modelled
explicitly.

The code keeps no finish order and no results list, and the progress
computation has no shortcut for a racer who has already finished. Nothing
writes the status `finished`: "finished" is only the leaderboard's display
flag `position >= 1`.

## Model

| member | source | states |
|---|---|---|
| `Lobby.HasPlayerId` | src/App.jsx:21 | the guard `!myPlayerId` on the id from line 12: a player id counts only when present and non-empty |
| `Lobby.IsRacerTaken` | src/App.jsx:15-17 | a racer is taken exactly when some player's stored choice has that racer's id |
| `Lobby.SelectRacer` | src/App.jsx:20-36 | without a player id nothing changes; a click on one's own racer removes one's entry; a click on a free racer makes it one's entry; a racer held by someone else leaves the table as it is; in every case all other players' entries are unchanged |
| `Lobby.SelectKeepsRacersDistinct` | src/App.jsx:20-36 | if no two players held the same racer id before a click, none do after it |
| `Lobby.SelectTwiceRestores` | src/App.jsx:23-35 | toggle round trip: with no entry of one's own and a free racer, two clicks on it restore the original table |
| `Lobby.SelectedRacerIsTaken` | src/App.jsx:30-35 | after a click on a free racer, that racer is taken |
| `Lobby.ReleasedRacerIsFree` | src/App.jsx:23-27 | with unique racer ids, releasing one's racer makes it free again |
| `Lobby.AllPlayersReady` | src/App.jsx:42 | the roster is non-empty and every player on it has a stored choice |
| `Lobby.ReleaseBreaksReadiness` | src/App.jsx:42 | a rostered player who releases their racer makes `allPlayersReady` false |
| `Lobby.SelectionKeepsReadiness` | src/App.jsx:42 | a click that does not release a racer never turns a ready lobby unready |
| `Lobby.LastPickMakesReady` | src/App.jsx:42 | when the only player without a choice picks a free racer, the lobby becomes ready |
| `Lobby.LobbyState.constructor` | src/App.jsx:9-11 | the choice table starts empty and both race flags start false |
| `Lobby.LobbyState.HandleSelectRacer` | src/App.jsx:20-36 | the stored table becomes `SelectRacer` of the old one, and uniqueness of racer ids is preserved |
| `Lobby.LobbyState.StartRace` | src/App.jsx:45-51 | both flags are set exactly when all players are ready and the caller is host; otherwise nothing changes; the shared flag is never newly set otherwise |
| `Lobby.LobbyState.BackToLobby` | src/App.jsx:53-59 | only the host clears the shared flag; the local flag is always cleared |
| `Lobby.LobbyState.SyncLocalRaceStarted` | src/App.jsx:62-68 | the local flag takes the value of the shared flag |
| `RaceScreen.PositionIndex` | src/components/RaceScreen.jsx:77-79 | the sample index always lies in `[0, len-1]`; progress ≤ 0 gives index 0 and progress ≥ 1 gives the last index; for progress in `[0, 1]` it is the whole part of `progress * (len - 1)` |
| `RaceScreen.GetPositionCoords` | src/components/RaceScreen.jsx:75-80 | null exactly for an empty route; otherwise the route sample at `PositionIndex`, so the sample `floor(progress * (len - 1))` for progress in `[0, 1]`, the first one for progress ≤ 0 and the last one for progress ≥ 1 |
| `RaceScreen.PositionIndexMonotonic` | src/components/RaceScreen.jsx:77-78 | a larger progress never selects an earlier sample |
| `RaceScreen.MiddleOfThreeSamples` | src/components/RaceScreen.jsx:78 | three samples at progress 0.5 give the middle sample (index 1) |
| `RaceScreen.StartTimeSet` | src/components/RaceScreen.jsx:84 | the guard `!raceStartTime`: a start time counts only when present and not 0 |
| `RaceScreen.RacerProgress` | src/components/RaceScreen.jsx:83-94 | progress is 0 when the start time is unset, when the status is not racing, or when the racer has no settings entry; it never exceeds 1 |
| `RaceScreen.ProgressMonotonic` | src/components/RaceScreen.jsx:90-93 | for a non-negative speed, progress is non-decreasing in the clock reading |
| `RaceScreen.ProgressNegativeBeforeStart` | src/components/RaceScreen.jsx:90-93 | progress is not clamped below: a clock reading before the start gives a negative progress for a positive speed |
| `RaceScreen.ProgressPositiveAfterStart` | src/components/RaceScreen.jsx:90-93 | a racer with positive speed has positive progress at every clock reading after the start |
| `RaceScreen.FinishInstant` | src/components/RaceScreen.jsx:90-93 | with positive speed `v`, progress reaches 1 (the finished flag) exactly when at least `10 / v` ms have elapsed |
| `RaceScreen.ProgressDependsOnElapsedTime` | src/components/RaceScreen.jsx:90-91 | two races started at different instants with the same settings give the same progress after the same elapsed time |
| `RaceScreen.MarkerNeverMovesBack` | src/components/RaceScreen.jsx:101-102 | for a non-negative speed, the marker's route sample never moves back as the clock advances |
| `RaceScreen.IsActiveChoice` | src/components/RaceScreen.jsx:49 | a stored choice is active when `selected`, `isSelected`, `racer` or a non-empty `color` holds |
| `RaceScreen.ActiveRacers` | src/components/RaceScreen.jsx:46-52 | a player is in the result exactly when it is on the roster and its stored choice has `selected`, `isSelected`, `racer` or `color` truthy; the result is no longer than the roster |
| `RaceScreen.ActiveRacersAppend` | src/components/RaceScreen.jsx:47-50 | the filter keeps roster order: filtering a concatenation gives the concatenation of the filtered parts |
| `RaceScreen.StandingOf` | src/components/RaceScreen.jsx:298-306 | the row carries the player and its position; `finished` holds exactly when the position is ≥ 1; the name is the settings name when that is non-empty and "Игрок" otherwise, so never empty |
| `RaceScreen.Standings` | src/components/RaceScreen.jsx:297-306 | before sorting, the rows are the active racers in roster order, one row each; row `i` has the progress of racer `i` at its clock reading and is that racer's `StandingOf` row, so its name and `finished` flag follow the rules of the row |
| `RaceScreen.InsertByPosition` | src/components/RaceScreen.jsx:307 | one insertion step of the sort adds exactly the inserted row |
| `RaceScreen.InsertKeepsSorted` | src/components/RaceScreen.jsx:307 | inserting into rows sorted by descending position keeps them sorted |
| `RaceScreen.InsertKeepsPlayers` | src/components/RaceScreen.jsx:307 | inserting a row adds exactly its player to the rows' players |
| `RaceScreen.InsertKeepsTies` | src/components/RaceScreen.jsx:307 | insertion places the new row before the rows with an equal position |
| `RaceScreen.SortByPosition` | src/components/RaceScreen.jsx:307 | the sort by `b.position - a.position` returns a permutation of its rows sorted by non-increasing position |
| `RaceScreen.SortKeepsPlayers` | src/components/RaceScreen.jsx:307 | the sorted rows hold the same players, with the same multiplicities, as the rows sorted |
| `RaceScreen.SortIsStable` | src/components/RaceScreen.jsx:307 | the sort is stable: for every position value, the rows with that position keep their order |
| `RaceScreen.Leaderboard` | src/components/RaceScreen.jsx:296-308 | the leaderboard's players are a permutation of the active racers, and its rows are a permutation of their standings; it is sorted by non-increasing position; in every row the position is at most 1 and `finished` holds exactly when the position is ≥ 1 |
| `RaceScreen.LeaderboardTiesInRosterOrder` | src/components/RaceScreen.jsx:296-308 | rows with equal positions appear in roster order |
| `RaceScreen.LeaderboardBeforeRaceIsRosterOrder` | src/components/RaceScreen.jsx:296-308 | while no race is running the leaderboard is exactly the active racers' rows in roster order |
| `RaceScreen.DisplayName` | src/components/RaceScreen.jsx:146 | the name is never empty; a non-empty profile name is used as is; otherwise the name is "Игрок " followed by a prefix of the id, four characters long or the whole id when shorter |
| `RaceScreen.SettingOf` | src/components/RaceScreen.jsx:144-147 | one racer's setting: a draw in `[0, 1)` gives a speed in `[0.0005, 0.0008)`, and the name is the display name |
| `RaceScreen.SettingsFor` | src/components/RaceScreen.jsx:142-148 | the settings object the initialisation loop builds, one `SettingOf` entry per active racer in roster order |
| `RaceScreen.SettingsForLastWins` | src/components/RaceScreen.jsx:143-148 | each active racer's entry is the setting drawn at its last place in the roster, so a later racer with the same id overwrites an earlier one |
| `RaceScreen.SettingsForKeys` | src/components/RaceScreen.jsx:143-149 | the initialised settings have exactly one entry per active racer id |
| `RaceScreen.SettingsForSpeeds` | src/components/RaceScreen.jsx:145 | with every draw in `[0, 1)`, every initialised speed lies in `[0.0005, 0.0008)` |
| `RaceScreen.InitialisedRacersMove` | src/components/RaceScreen.jsx:143-149 | once settings are initialised and a race runs, every active racer's progress is positive after the start |
| `RaceScreen.RaceSession.constructor` | src/components/RaceScreen.jsx:33-35 | the shared race state starts waiting, with no start time and no settings |
| `RaceScreen.RaceSession.StartRace` | src/components/RaceScreen.jsx:271-277 | nothing changes unless the caller is host and some racer is active; otherwise the start time becomes `now` and the status racing; settings are untouched, and every progress is 0 at the start instant |
| `RaceScreen.RaceSession.ResetRace` | src/components/RaceScreen.jsx:279-284 | nothing changes unless the caller is host; otherwise the status becomes waiting and the start time null; settings are untouched, and every progress is 0 afterwards |
| `RaceScreen.RaceSession.InitializeSettings` | src/components/RaceScreen.jsx:136-153 | settings are written only by the host, with active racers, a non-empty route and an empty settings map; they then hold one entry per active racer with speed in `[0.0005, 0.0008)`; a non-empty map is never overwritten |
| `RouteCalculations.Round` | src/utils/routeCalculations.js:25 | `Math.round` gives the nearest integer, halves rounded up |
| `RouteCalculations.TruncRem` | src/utils/routeCalculations.js:27 | JavaScript `%` with a positive divisor: for a non-negative dividend the remainder is in `[0, d)` and completes the floor quotient; for a negative one it lies in `(-d, 0]` and completes the quotient truncated toward zero |
| `RouteCalculations.CalculateRaceTime` | src/utils/routeCalculations.js:22-37 | the speed defaults to 35 and may be anything, 0 included, for a length ≤ 0; a length ≤ 0 gives 0 minutes and the text "0 мин"; otherwise `minutes` is within a half of `length / speed * 60`; for positive length and speed, `hours * 60 + remainingMinutes == minutes` with `0 ≤ remainingMinutes < 60`; the text has the hour form exactly when `hours > 0` |
| `RouteCalculations.FormatMinutes` | src/utils/routeCalculations.js:26-34 | the text has an hour mark exactly when the whole hours `minutes / 60` are positive |
| `RouteCalculations.FormatHoursAndMinutes` | src/utils/routeCalculations.js:26-31 | with at least 60 minutes the text is the whole hours, "ч ", the minutes left over and "мин" |
| `RouteCalculations.FormatMinutesOnly` | src/utils/routeCalculations.js:32-34 | under 60 minutes the text is the minutes followed by "мин" |
| `RouteCalculations.FormatMinutesReadsBack` | src/utils/routeCalculations.js:26-34 | the text of any non-negative number of minutes reads back as that number, in either form |
| `RouteCalculations.ReadDurationOnlyFormatted` | src/utils/routeCalculations.js:26-34 | every text the reader accepts is the text written for the number it reads as, so the text of a number of minutes is unique: hours at least 1, minutes below 60, no leading zeros |
| `RouteCalculations.NoHourMark` | src/utils/routeCalculations.js:33 | the minutes-only text carries no hour mark |
| `RouteCalculations.ReadHoursAndMinutesText` | src/utils/routeCalculations.js:31 | the text "Hч Mмин" with H ≥ 1 and M < 60 reads back as `H * 60 + M` minutes |
| `RouteCalculations.ReadMinutesOnly` | src/utils/routeCalculations.js:33 | the text "Mмин" with M < 60 reads back as `M` minutes |
| `RouteCalculations.DefaultSpeedEstimates` | src/utils/routeCalculations.js:22-34 | at the default speed a 35 km route takes 60 minutes, written "1ч 0мин"; a length ≤ 0 gives "0 мин" even at speed 0 |
| `RouteCalculations.FormattedRaceTimeReadsBack` | src/utils/routeCalculations.js:25-34 | for positive length and speed, the formatted text denotes exactly the computed number of minutes, in either form |
| `IntText.NatText` | src/utils/routeCalculations.js:31 | the text of a natural number is a non-empty string of digits without a leading zero |
| `IntText.IntToText` | src/utils/routeCalculations.js:33 | the text of a non-negative integer is decimal text without a leading zero that reads back as the integer; for a negative one it is "-" followed by such text for its absolute value |
| `IntText.ParseNatText` | src/utils/routeCalculations.js:31 | writing a number as text and reading it back gives the number |
| `IntText.NatTextOfParse` | src/utils/routeCalculations.js:31 | every decimal text without a leading zero is the text of the number it reads as |
| `RouteCalculations.SegmentIndex` | src/utils/routeCalculations.js:73-74 | the fractional index lies in `[0, len-1]` and equals `len-1` for every progress ≥ 100 |
| `RouteCalculations.Lerp` | src/utils/routeCalculations.js:86-89 | with a fraction in `[0, 1]` the interpolated value lies between the two samples; fraction 0 gives the first sample |
| `RouteCalculations.CalculatePositionOnRoute` | src/utils/routeCalculations.js:70-90 | null exactly for an empty route or a negative progress; the last point for every progress ≥ 100 and for every single-point route; below the last index, the result lies in the box of the two neighbouring samples, and equals `route[index]` when the fraction is 0 |
| `RouteCalculations.SamplesAreHit` | src/utils/routeCalculations.js:74-89 | interpolation passes through every sample: progress `100 * k / (len - 1)` gives `route[k]` |
| `RouteCalculations.InterpolatesBetweenSamples` | src/utils/routeCalculations.js:73-89 | between samples `k` and `k + 1` the position is linear: the progress that puts the fractional index at `k + t`, `t` in `[0, 1)`, gives `route[k] + (route[k + 1] - route[k]) * t` on each axis |
| `RouteCalculations.CalculateRouteCenter` | src/utils/routeCalculations.js:122-129 | no coordinates give the default centre `[37.6173, 55.7558]`; a single point maps to itself |
| `RouteCalculations.SumAlong` | src/utils/routeCalculations.js:125-126 | the `reduce` that sums one axis of the coordinates from left to right, starting at 0 |
| `RouteCalculations.SumAlongBounds` | src/utils/routeCalculations.js:125-126 | a sum of `n` components within `[lo, hi]` lies within `[n * lo, n * hi]` |
| `RouteCalculations.CenterWithinBounds` | src/utils/routeCalculations.js:125-128 | on each axis, the centre of a non-empty route lies within every band that holds all its points, so within their minimum and maximum |
| `RouteCalculations.CenterOfTwoPoints` | src/utils/routeCalculations.js:125-128 | the centre of two points is their midpoint |
| `RouteCalculations.CenterAddPoint` | src/utils/routeCalculations.js:125-128 | adding a point to a non-empty route moves the centre as a running mean: `(n * old + p) / (n + 1)` on each axis, so with the single-point case the centre is the coordinate-wise mean for every length |
| `RouteCalculations.SumAlongPermutation` | src/utils/routeCalculations.js:125-126 | the summed component does not depend on the order of the points |
| `RouteCalculations.CenterIgnoresOrder` | src/utils/routeCalculations.js:124-128 | the centre depends only on the multiset of points, as a mean does |
| `RouteCalculations.Kept` | src/utils/routeCalculations.js:137-147 | the points kept by the loop so far start with the first input point and are never more than the points examined |
| `RouteCalculations.KeptIsSubsequence` | src/utils/routeCalculations.js:140-147 | the points kept by the loop so far are input points at increasing positions, all below the loop index |
| `RouteCalculations.KeptSpacing` | src/utils/routeCalculations.js:141-146 | consecutive points kept by the loop are at least `minDistanceKm` apart |
| `RouteCalculations.KeptIndicesBelow` | src/utils/routeCalculations.js:140-147 | the input positions of the points kept so far are all below the loop index |
| `RouteCalculations.KeptIndicesDecision` | src/utils/routeCalculations.js:140-147 | interior point `i` is kept when the loop reaches it exactly when it is at least `minDistanceKm` from the last point kept before it |
| `RouteCalculations.KeptIndicesSettled` | src/utils/routeCalculations.js:140-147 | that decision is final: after any later iteration, point `i` is among the kept positions exactly when it was far enough |
| `RouteCalculations.Optimized` | src/utils/routeCalculations.js:134-151 | the route optimizeRoute returns: the input itself for fewer than 2 points, otherwise the kept interior points between the first and the last point |
| `RouteCalculations.OptimizeRoute` | src/utils/routeCalculations.js:134-151 | the loop returns exactly `Optimized`, with `minDistanceKm` defaulting to 0.01 |
| `RouteCalculations.OptimizedAtKeptIndices` | src/utils/routeCalculations.js:134-151 | for 2 or more points the result is the input at the kept positions followed by the last position |
| `RouteCalculations.OptimizedDropsExactlyClosePoints` | src/utils/routeCalculations.js:137-149 | the result is the input at the kept positions and the last one, and interior point `i` is kept if and only if it is at least `minDistanceKm` from the last point kept before it |
| `RouteCalculations.OptimizedKeepsEnds` | src/utils/routeCalculations.js:137-149 | a route of 2 or more points keeps its first and its last point, so the result has at least 2 points |
| `RouteCalculations.OptimizedIsSubsequence` | src/utils/routeCalculations.js:134-151 | the result is the input with some interior points removed, in the same order |
| `RouteCalculations.OptimizedSpacing` | src/utils/routeCalculations.js:140-149 | every point of the result except the last is at least `minDistanceKm` from the point before it |

## Left out

- The replicated store, the roster and host election (`useMultiplayerState`, `usePlayersList`, `isHost`, `myPlayer`) are not modelled. Their values are fields and parameters, and writes happen one after another. Last-write-wins races between peers are concurrency and are not modelled.
- The animation loop driven by `requestAnimationFrame` (src/components/RaceScreen.jsx:111-133) is not modelled; it is UI scheduling.
- Marker updates (src/components/RaceScreen.jsx:97-108, 286-292) are left out as UI. Only their composition of progress and sample lookup is stated, in `MarkerNeverMovesBack`.
- The Mapbox map, layers and markers (src/components/RaceScreen.jsx:156-268) and the camera wrapper in src/components/RaceCamera.jsx are foreign UI calls.
- The route and centre memos and the random city choice in src/components/RaceScreen.jsx:55-72 and 156-165 are left out. They call the geometry library or the city catalogue, and the city catalogue is not part of this model.
- `calculateRouteLength`, `createSmoothRoute` and `createDistanceMarkers` (src/utils/routeCalculations.js:7-17, 42-65, 95-117) are left out. They are thin wrappers over a geometry library whose code is not part of this model.
- Inside `optimizeRoute` the library's distance becomes the parameter `distance`. The unused `lineString(coordinates)` at :138, and any exception it might throw on malformed input, is not modelled.
- src/components/RacerSlider.jsx (a carousel whose selection guard restates `isRacerTaken`), src/main.jsx (bootstrap) and the static data in src/constants/ are left out.
- The `null`/`undefined` array guards `!route` (src/utils/routeCalculations.js:71) and `!coordinates` (:123 and :135) are not modelled: a `seq` is never missing, so only their empty-array halves are.
- IEEE doubles, `NaN` and `Infinity` are not modelled: numbers are exact `real`s and unbounded `int`s.
- `RouteCalculations.CalculateRaceTime` requires a non-zero speed only for a positive length. For a positive length at speed 0 the source divides by zero and formats `Infinity`, which reals cannot express; a length ≤ 0 returns before dividing and is modelled for every speed.
- `RaceScreen.DisplayName` takes the first four characters of the id; JavaScript's `slice` counts UTF-16 code units. The model assumes ASCII ids, for which the two agree.
- `RouteCalculations.ReadDuration` is not part of the game. It reads only the texts `FormatMinutes` writes (hours at least 1, minutes below 60, no leading zeros) and serves to state that the text and the number of minutes determine each other.
- A missing profile and a profile with an empty name are both modelled as `profileName == ""`.
- The `racer` field of a choice is modelled by whether it is truthy. The catalogue records never carry `selected`, `isSelected` or `racer`, so these are `false` for them.

=== FILE: int_text.dfy ===
/** Decimal text of integers, as a JavaScript template literal `${n}` writes
    an integral number, and the matching reader used to state round trips. */
module IntText {

  predicate IsDigit(c: char) {
    '0' <= c <= '9'
  }

  predicate AllDigits(s: string) {
    forall i :: 0 <= i < |s| ==> IsDigit(s[i])
  }

  /** The decimal text of some natural number: at least one digit, and no
      leading zero unless the number is 0 itself. */
  predicate IsNatText(s: string) {
    s != [] && AllDigits(s) && (|s| > 1 ==> s[0] != '0')
  }

  function DigitChar(d: nat): (c: char)
    requires d < 10
    ensures IsDigit(c) && (c as int) - ('0' as int) == d
  {
    "0123456789"[d]
  }

  /** Decimal digits of `n`, most significant first, without leading zeros. */
  function NatText(n: nat): (s: string)
    ensures |s| >= 1 && AllDigits(s)
    ensures |s| > 1 ==> s[0] != '0'
    decreases n
  {
    if n < 10 then [DigitChar(n)] else NatText(n / 10) + [DigitChar(n % 10)]
  }

  /** `${n}` for an integral number: a minus sign for negatives. */
  function IntToText(n: int): (s: string)
    ensures n >= 0 ==> IsNatText(s) && ParseNat(s) == n
    ensures n < 0 ==> |s| >= 2 && s[0] == '-' && IsNatText(s[1..]) && ParseNat(s[1..]) == -n
  {
    if n < 0 then
      var digits := NatText(-n);
      ParseNatText(-n);
      assert ("-" + digits)[1..] == digits;
      "-" + digits
    else
      ParseNatText(n);
      NatText(n)
  }

  /** Reads a string of decimal digits back into its value. */
  function ParseNat(s: string): (n: nat)
    requires AllDigits(s)
  {
    if s == [] then 0
    else ParseNat(s[..|s| - 1]) * 10 + ((s[|s| - 1] as int) - ('0' as int))
  }

  /** Writing a natural number and reading it back gives the number. */
  lemma {:induction false} ParseNatText(n: nat)
    ensures ParseNat(NatText(n)) == n
    decreases n
  {
    var s := NatText(n);
    if n >= 10 {
      ParseNatText(n / 10);
      assert s[..|s| - 1] == NatText(n / 10);
    }
  }

  /** A number written without a leading zero is at least 1. */
  lemma {:induction false} ParseNatPositive(s: string)
    requires IsNatText(s) && s[0] != '0'
    ensures ParseNat(s) >= 1
    decreases |s|
  {
    if |s| > 1 {
      var p := s[..|s| - 1];
      assert p[0] == s[0];
      ParseNatPositive(p);
    } else {
      assert s[..0] == [];
    }
  }

  /** Every decimal text is the text of the number it reads as, so that
      NatText and ParseNat are inverse bijections. */
  lemma {:induction false} NatTextOfParse(s: string)
    requires IsNatText(s)
    ensures NatText(ParseNat(s)) == s
    decreases |s|
  {
    var d := (s[|s| - 1] as int) - ('0' as int);
    if |s| == 1 {
      assert s[..0] == [];
      assert ParseNat(s) == d;
      assert DigitChar(d) as int == s[0] as int;
      assert NatText(d) == [s[0]];
    } else {
      var p := s[..|s| - 1];
      assert p[0] == s[0];
      NatTextOfParse(p);
      ParseNatPositive(s);
      ParseNatPositive(p);
      var n := ParseNat(s);
      assert n == ParseNat(p) * 10 + d;
      assert n / 10 == ParseNat(p) && n % 10 == d;
      assert DigitChar(d) as int == s[|s| - 1] as int;
      assert s == p + [s[|s| - 1]];
    }
  }
}

=== FILE: lobby.dfy ===
/** The lobby of src/App.jsx: the shared table of racer choices, the toggle
    that assigns or releases a racer for the current player, the readiness
    test, and the host-gated flags that open and close the race screen. */
module Lobby {

  import opened Wrappers
  import opened Records

  /** `myPlayer()?.id` is usable only when it is truthy: no player and the
      empty id both count as missing. */
  predicate HasPlayerId(me: Option<PlayerId>) {
    me.Some? && me.value != ""
  }

  /** isRacerTaken: some stored choice carries the racer id. */
  function IsRacerTaken(choices: map<PlayerId, Racer>, racerId: int): (taken: bool)
    ensures taken <==> exists p :: p in choices && choices[p].id == racerId
  {
    exists c :: c in choices.Values && c.id == racerId
  }

  /** No two players hold racers with the same id. */
  ghost predicate DistinctRacers(choices: map<PlayerId, Racer>) {
    forall p, q :: p in choices && q in choices && p != q ==> choices[p].id != choices[q].id
  }

  /** `b` agrees with `a` on every key other than `me`. */
  ghost predicate SameExcept(a: map<PlayerId, Racer>, b: map<PlayerId, Racer>, me: PlayerId) {
    forall q :: q != me ==> (q in a <==> q in b) && (q in a ==> a[q] == b[q])
  }

  /** True when the current player already holds the racer's id. */
  predicate HoldsRacer(choices: map<PlayerId, Racer>, me: PlayerId, racer: Racer) {
    me in choices && choices[me].id == racer.id
  }

  /** The choice table after handleSelectRacer: nothing without a player id;
      a click on the racer one already holds releases it; a click on a free
      racer assigns it (replacing one's previous racer); a click on a racer
      held by someone else changes nothing. */
  function SelectRacer(choices: map<PlayerId, Racer>, me: Option<PlayerId>, racer: Racer)
    : (r: map<PlayerId, Racer>)
    ensures !HasPlayerId(me) ==> r == choices
    ensures HasPlayerId(me) && HoldsRacer(choices, me.value, racer) ==>
      me.value !in r && SameExcept(choices, r, me.value)
    ensures HasPlayerId(me) && !HoldsRacer(choices, me.value, racer) && !IsRacerTaken(choices, racer.id) ==>
      me.value in r && r[me.value] == racer && SameExcept(choices, r, me.value)
    ensures HasPlayerId(me) && !HoldsRacer(choices, me.value, racer) && IsRacerTaken(choices, racer.id) ==>
      r == choices
  {
    if !HasPlayerId(me) then choices
    else if HoldsRacer(choices, me.value, racer) then choices - {me.value}
    else if !IsRacerTaken(choices, racer.id) then choices[me.value := racer]
    else choices
  }

  /** Selecting keeps racer ids unique across players. */
  lemma SelectKeepsRacersDistinct(choices: map<PlayerId, Racer>, me: Option<PlayerId>, racer: Racer)
    requires DistinctRacers(choices)
    ensures DistinctRacers(SelectRacer(choices, me, racer))
  {
    var r := SelectRacer(choices, me, racer);
    if HasPlayerId(me) && !HoldsRacer(choices, me.value, racer) && !IsRacerTaken(choices, racer.id) {
      forall p, q | p in r && q in r && p != q
        ensures r[p].id != r[q].id
      {
        if p == me.value {
          assert q in choices;
        } else if q == me.value {
          assert p in choices;
        }
      }
    }
  }

  /** Toggle round trip: with no racer of one's own, clicking a free racer
      twice leaves the table as it was. */
  lemma SelectTwiceRestores(choices: map<PlayerId, Racer>, me: Option<PlayerId>, racer: Racer)
    requires HasPlayerId(me) && me.value !in choices
    requires !IsRacerTaken(choices, racer.id)
    ensures SelectRacer(SelectRacer(choices, me, racer), me, racer) == choices
  {
    var once := SelectRacer(choices, me, racer);
    assert HoldsRacer(once, me.value, racer);
    assert once - {me.value} == choices;
  }

  /** After a successful selection the racer is taken. */
  lemma SelectedRacerIsTaken(choices: map<PlayerId, Racer>, me: Option<PlayerId>, racer: Racer)
    requires HasPlayerId(me) && !IsRacerTaken(choices, racer.id)
    ensures IsRacerTaken(SelectRacer(choices, me, racer), racer.id)
  {
    assert SelectRacer(choices, me, racer)[me.value].id == racer.id;
  }

  /** Releasing one's racer frees it, since no one else can hold the same id. */
  lemma ReleasedRacerIsFree(choices: map<PlayerId, Racer>, me: Option<PlayerId>, racer: Racer)
    requires DistinctRacers(choices)
    requires HasPlayerId(me) && HoldsRacer(choices, me.value, racer)
    ensures !IsRacerTaken(SelectRacer(choices, me, racer), racer.id)
  {
  }

  /** allPlayersReady: a non-empty roster in which every player has a stored
      choice. */
  predicate AllPlayersReady(players: seq<Player>, choices: map<PlayerId, Racer>) {
    |players| > 0 && forall p :: p in players ==> p.id in choices
  }

  /** A player on the roster who releases their racer makes the lobby not
      ready. */
  lemma ReleaseBreaksReadiness(players: seq<Player>, choices: map<PlayerId, Racer>,
                               me: Player, racer: Racer)
    requires me in players && me.id != "" && HoldsRacer(choices, me.id, racer)
    ensures !AllPlayersReady(players, SelectRacer(choices, Some(me.id), racer))
  {
    assert me.id !in SelectRacer(choices, Some(me.id), racer);
  }

  /** A click that does not release a racer never makes a ready lobby
      unready: it only adds or replaces the clicking player's entry. */
  lemma SelectionKeepsReadiness(players: seq<Player>, choices: map<PlayerId, Racer>,
                                me: Option<PlayerId>, racer: Racer)
    requires AllPlayersReady(players, choices)
    requires !(HasPlayerId(me) && HoldsRacer(choices, me.value, racer))
    ensures AllPlayersReady(players, SelectRacer(choices, me, racer))
  {
    var r := SelectRacer(choices, me, racer);
    forall p | p in players
      ensures p.id in r
    {
      assert p.id in choices;
    }
  }

  /** When the last player without a racer picks a free one, the lobby
      becomes ready. */
  lemma LastPickMakesReady(players: seq<Player>, choices: map<PlayerId, Racer>,
                           me: Player, racer: Racer)
    requires me in players && me.id != "" && me.id !in choices
    requires forall p :: p in players && p.id != me.id ==> p.id in choices
    requires !IsRacerTaken(choices, racer.id)
    ensures AllPlayersReady(players, SelectRacer(choices, Some(me.id), racer))
  {
    var r := SelectRacer(choices, Some(me.id), racer);
    forall p | p in players
      ensures p.id in r
    {
      if p.id != me.id {
        assert p.id in choices;
      }
    }
  }

  /** The lobby's shared and local state. */
  class LobbyState {
    /** The shared `racerChoices` map. */
    var choices: map<PlayerId, Racer>
    /** The shared `raceStarted` flag. */
    var raceStarted: bool
    /** This peer's `localRaceStarted` flag: shows the race screen. */
    var localRaceStarted: bool

    constructor ()
      ensures choices == map[] && !raceStarted && !localRaceStarted
    {
      choices := map[];
      raceStarted := false;
      localRaceStarted := false;
    }

    /** handleSelectRacer: copies the table, removes or overwrites the
        current player's entry, and stores the copy. */
    method HandleSelectRacer(me: Option<PlayerId>, racer: Racer)
      modifies this`choices
      ensures choices == SelectRacer(old(choices), me, racer)
      ensures DistinctRacers(old(choices)) ==> DistinctRacers(choices)
    {
      if me.None? || me.value == "" {
        return;
      }
      var myId := me.value;
      if myId in choices && choices[myId].id == racer.id {
        var newChoices := choices;
        newChoices := newChoices - {myId};
        choices := newChoices;
      } else if !IsRacerTaken(choices, racer.id) {
        choices := choices[myId := racer];
      }
      if DistinctRacers(old(choices)) {
        SelectKeepsRacersDistinct(old(choices), me, racer);
      }
    }

    /** startRace: only the host, and only when every player is ready, sets
        the shared flag and opens the race screen locally. */
    method StartRace(players: seq<Player>, isHost: bool)
      modifies this`raceStarted, this`localRaceStarted
      ensures if AllPlayersReady(players, choices) && isHost
        then raceStarted && localRaceStarted
        else raceStarted == old(raceStarted) && localRaceStarted == old(localRaceStarted)
      ensures raceStarted && !old(raceStarted) ==> AllPlayersReady(players, choices) && isHost
    {
      if AllPlayersReady(players, choices) && isHost {
        raceStarted := true;
        localRaceStarted := true;
      }
    }

    /** backToLobby: the host clears the shared flag; every peer closes its
        race screen. */
    method BackToLobby(isHost: bool)
      modifies this`raceStarted, this`localRaceStarted
      ensures raceStarted == (if isHost then false else old(raceStarted))
      ensures !localRaceStarted
    {
      if isHost {
        raceStarted := false;
      }
      localRaceStarted := false;
    }

    /** The effect that mirrors the shared flag into the local one. */
    method SyncLocalRaceStarted()
      modifies this`localRaceStarted
      ensures localRaceStarted == raceStarted
    {
      if raceStarted {
        localRaceStarted := true;
      } else {
        localRaceStarted := false;
      }
    }
  }
}

=== FILE: race_screen.dfy ===
/** The race screen of src/components/RaceScreen.jsx: the time-based progress
    of each racer, the nearest-sample lookup that places a marker on the
    resampled route, the active-racer filter, the leaderboard, and the
    host-gated race controls over the shared race state. */
module RaceScreen {

  import opened Wrappers
  import opened Records
  import RouteCalculations

  type Coord = RouteCalculations.Coord

  /** The shared `raceStatus` value. `Finished` can be read and displayed,
      but nothing on this screen ever writes it. */
  datatype RaceStatus = Waiting | Racing | Finished

  /** One entry of the shared `racerSettings` map. */
  datatype RacerSetting = RacerSetting(speed: real, name: string)

  /** Converts `elapsed milliseconds * speed` into route progress. */
  const ProgressScale: real := 0.1

  /** Speeds are drawn from `[BaseSpeed, BaseSpeed + SpeedVariation)`. */
  const BaseSpeed: real := 0.0005
  const SpeedVariation: real := 0.0003

  function Max(x: real, y: real): real {
    if x <= y then y else x
  }

  // ---------------------------------------------------------------------------
  // getPositionCoords
  // ---------------------------------------------------------------------------

  /** The sample index for a progress value: the progress is clamped to
      [0, 1], scaled to the index range and rounded down. */
  function PositionIndex(len: nat, position: real): (i: nat)
    requires len >= 1
    ensures i < len
    ensures position <= 0.0 ==> i == 0
    ensures position >= 1.0 ==> i == len - 1
    ensures 0.0 <= position <= 1.0 ==> i as real <= position * (len - 1) as real < i as real + 1.0
  {
    var clamped := Max(0.0, RouteCalculations.Min(position, 1.0));
    RouteCalculations.MulNonNegative(clamped, (len - 1) as real);
    var pointIndex := (clamped * (len - 1) as real).Floor;
    if pointIndex <= len - 1 then pointIndex else len - 1
  }

  /** The marker coordinate for a progress value: `None` for an empty route,
      otherwise one of the route's own samples (no interpolation), the start
      for any progress up to 0 and the finish for any progress from 1 on. */
  function GetPositionCoords(route: seq<Coord>, position: real): (r: Option<Coord>)
    ensures r.None? <==> route == []
    ensures r.Some? ==> r.value in route
    ensures route != [] && position <= 0.0 ==> r == Some(route[0])
    ensures route != [] && position >= 1.0 ==> r == Some(route[|route| - 1])
    ensures route != [] ==> r == Some(route[PositionIndex(|route|, position)])
  {
    if route == [] then None else Some(route[PositionIndex(|route|, position)])
  }

  /** A larger progress never selects an earlier sample. */
  lemma PositionIndexMonotonic(len: nat, p: real, q: real)
    requires len >= 1 && p <= q
    ensures PositionIndex(len, p) <= PositionIndex(len, q)
  {
    var cp := Max(0.0, RouteCalculations.Min(p, 1.0));
    var cq := Max(0.0, RouteCalculations.Min(q, 1.0));
    var n := (len - 1) as real;
    RouteCalculations.MulNonNegative(cq - cp, n);
    assert cp * n <= cq * n;
  }

  /** A route of three samples at progress one half yields the middle one. */
  lemma MiddleOfThreeSamples(a: Coord, b: Coord, c: Coord)
    ensures GetPositionCoords([a, b, c], 0.5) == Some(b)
  {
    assert PositionIndex(3, 0.5) == 1;
  }

  // ---------------------------------------------------------------------------
  // calculateRacerPosition
  // ---------------------------------------------------------------------------

  /** `raceStartTime` is used only when it is truthy: null and 0 count as
      unset. */
  predicate StartTimeSet(startTime: Option<int>) {
    startTime.Some? && startTime.value != 0
  }

  /** A racer's progress at clock reading `now` (milliseconds): 0 unless a
      race is running and the racer has settings; otherwise
      `elapsed * speed * 0.1`, capped at 1 but not clamped below 0. */
  function RacerProgress(startTime: Option<int>, status: RaceStatus,
                         settings: map<PlayerId, RacerSetting>,
                         racerId: PlayerId, now: int): (p: real)
    ensures !StartTimeSet(startTime) || status != Racing ==> p == 0.0
    ensures racerId !in settings ==> p == 0.0
    ensures p <= 1.0
  {
    if !StartTimeSet(startTime) || status != Racing then 0.0
    else if racerId !in settings then 0.0
    else
      var elapsed := (now - startTime.value) as real;
      RouteCalculations.Min(elapsed * settings[racerId].speed * ProgressScale, 1.0)
  }

  /** For a non-negative speed, progress never decreases as the clock
      advances. */
  lemma ProgressMonotonic(startTime: Option<int>, status: RaceStatus,
                          settings: map<PlayerId, RacerSetting>,
                          racerId: PlayerId, t1: int, t2: int)
    requires t1 <= t2
    requires racerId in settings ==> settings[racerId].speed >= 0.0
    ensures RacerProgress(startTime, status, settings, racerId, t1)
         <= RacerProgress(startTime, status, settings, racerId, t2)
  {
    if StartTimeSet(startTime) && status == Racing && racerId in settings {
      var s := startTime.value;
      var v := settings[racerId].speed;
      var e1, e2 := (t1 - s) as real, (t2 - s) as real;
      assert e2 - e1 == (t2 - t1) as real;
      RouteCalculations.MulNonNegative(e2 - e1, v);
      assert e2 * v - e1 * v == (e2 - e1) * v;
      assert e1 * v * ProgressScale <= e2 * v * ProgressScale;
      assert RacerProgress(startTime, status, settings, racerId, t1) == RouteCalculations.Min(e1 * v * ProgressScale, 1.0);
      assert RacerProgress(startTime, status, settings, racerId, t2) == RouteCalculations.Min(e2 * v * ProgressScale, 1.0);
    }
  }

  /** Progress is not clamped below: a clock reading before the start time
      gives a negative progress for a positive speed. */
  lemma ProgressNegativeBeforeStart(start: int, settings: map<PlayerId, RacerSetting>,
                                    racerId: PlayerId, now: int)
    requires start != 0 && now < start
    requires racerId in settings && settings[racerId].speed > 0.0
    ensures RacerProgress(Some(start), Racing, settings, racerId, now) < 0.0
  {
    var v := settings[racerId].speed;
    var e := (start - now) as real;
    assert e * v > 0.0 by {
      assert e > 0.0;
    }
    assert (now - start) as real * v == -(e * v);
  }

  /** With a positive speed `v`, a racer counts as finished (progress 1)
      exactly from `10 / v` milliseconds after the start. */
  lemma FinishInstant(start: int, settings: map<PlayerId, RacerSetting>,
                      racerId: PlayerId, now: int)
    requires start != 0
    requires racerId in settings && settings[racerId].speed > 0.0
    ensures var v := settings[racerId].speed;
      var p := RacerProgress(Some(start), Racing, settings, racerId, now);
      p >= 1.0 <==> (now - start) as real >= 10.0 / v
  {
    var v := settings[racerId].speed;
    var e := (now - start) as real;
    assert RacerProgress(Some(start), Racing, settings, racerId, now) == RouteCalculations.Min(e * v * ProgressScale, 1.0);
    ThresholdAtSpeed(e, v);
  }

  /** At a positive speed `v`, `e * v` reaches 10 exactly when `e` reaches
      `10 / v`. */
  lemma ThresholdAtSpeed(e: real, v: real)
    requires v > 0.0
    ensures e * v >= 10.0 <==> e >= 10.0 / v
  {
    var d := 10.0 / v;
    assert d * v == 10.0;
    if e >= d {
      RouteCalculations.MulNonNegative(e - d, v);
      assert e * v - d * v == (e - d) * v;
    } else {
      assert (d - e) * v > 0.0 by {
        assert d - e > 0.0;
      }
      assert d * v - e * v == (d - e) * v;
    }
  }

  /** Progress depends only on the time elapsed since the start: two races
      started at different instants with the same settings follow the same
      curve. */
  lemma ProgressDependsOnElapsedTime(s1: int, s2: int, settings: map<PlayerId, RacerSetting>,
                                     racerId: PlayerId, elapsed: int)
    requires s1 != 0 && s2 != 0
    ensures RacerProgress(Some(s1), Racing, settings, racerId, s1 + elapsed)
         == RacerProgress(Some(s2), Racing, settings, racerId, s2 + elapsed)
  {
    if racerId in settings {
      var v := settings[racerId].speed;
      assert (s1 + elapsed - s1) as real == elapsed as real;
      assert (s2 + elapsed - s2) as real == elapsed as real;
      assert RacerProgress(Some(s1), Racing, settings, racerId, s1 + elapsed) == RouteCalculations.Min(elapsed as real * v * ProgressScale, 1.0);
      assert RacerProgress(Some(s2), Racing, settings, racerId, s2 + elapsed) == RouteCalculations.Min(elapsed as real * v * ProgressScale, 1.0);
    }
  }

  /** The marker of a racer with a non-negative speed never moves back along
      the route as the clock advances. */
  lemma MarkerNeverMovesBack(route: seq<Coord>, startTime: Option<int>, status: RaceStatus,
                             settings: map<PlayerId, RacerSetting>,
                             racerId: PlayerId, t1: int, t2: int)
    requires route != [] && t1 <= t2
    requires racerId in settings ==> settings[racerId].speed >= 0.0
    ensures PositionIndex(|route|, RacerProgress(startTime, status, settings, racerId, t1))
         <= PositionIndex(|route|, RacerProgress(startTime, status, settings, racerId, t2))
  {
    ProgressMonotonic(startTime, status, settings, racerId, t1, t2);
    PositionIndexMonotonic(|route|, RacerProgress(startTime, status, settings, racerId, t1),
                           RacerProgress(startTime, status, settings, racerId, t2));
  }

  // ---------------------------------------------------------------------------
  // activeRacers
  // ---------------------------------------------------------------------------

  /** A stored choice marks its player active when one of `selected`,
      `isSelected`, `racer` or `color` is truthy. */
  predicate IsActiveChoice(c: Racer) {
    c.selected || c.isSelected || c.racer || c.color != ""
  }

  predicate IsActive(p: Player, choices: map<PlayerId, Racer>) {
    p.id in choices && IsActiveChoice(choices[p.id])
  }

  /** The players, in roster order, whose stored choice marks them active. */
  function ActiveRacers(players: seq<Player>, choices: map<PlayerId, Racer>): (active: seq<Player>)
    ensures |active| <= |players|
    ensures forall p :: p in active <==> p in players && IsActive(p, choices)
  {
    if players == [] then []
    else
      var rest := ActiveRacers(players[1..], choices);
      assert forall p :: p in players <==> p == players[0] || p in players[1..];
      if IsActive(players[0], choices) then [players[0]] + rest else rest
  }

  /** The filter keeps roster order: filtering a concatenation is the
      concatenation of the filtered parts. */
  lemma {:induction false} ActiveRacersAppend(a: seq<Player>, b: seq<Player>, choices: map<PlayerId, Racer>)
    ensures ActiveRacers(a + b, choices) == ActiveRacers(a, choices) + ActiveRacers(b, choices)
  {
    if a != [] {
      assert (a + b)[0] == a[0];
      assert (a + b)[1..] == a[1..] + b;
      ActiveRacersAppend(a[1..], b, choices);
    } else {
      assert a + b == b;
    }
  }

  // ---------------------------------------------------------------------------
  // leaderboard
  // ---------------------------------------------------------------------------

  /** One row of the leaderboard. */
  datatype Standing = Standing(player: Player, position: real, finished: bool, name: string)

  const DefaultRowName: string := "Игрок"

  /** The row for one racer: `finished` is the display flag `position >= 1`,
      and the name falls back to "Игрок" without a non-empty settings name. */
  function StandingOf(player: Player, position: real, settings: map<PlayerId, RacerSetting>): (r: Standing)
    ensures r.player == player && r.position == position
    ensures r.finished <==> position >= 1.0
    ensures r.name != ""
    ensures player.id in settings && settings[player.id].name != "" ==> r.name == settings[player.id].name
    ensures !(player.id in settings && settings[player.id].name != "") ==> r.name == DefaultRowName
  {
    var name :=
      if player.id in settings && settings[player.id].name != "" then settings[player.id].name
      else DefaultRowName;
    Standing(player, position, position >= 1.0, name)
  }

  /** The rows before sorting, in roster order. Each racer's progress is
      computed from its own clock reading `nows[i]`, since every call of the
      progress function reads the clock afresh. */
  function Standings(startTime: Option<int>, status: RaceStatus,
                     settings: map<PlayerId, RacerSetting>,
                     active: seq<Player>, nows: seq<int>): (rows: seq<Standing>)
    requires |nows| == |active|
    ensures |rows| == |active|
    ensures PlayersOf(rows) == active
    ensures forall i :: 0 <= i < |rows| ==>
      rows[i].position == RacerProgress(startTime, status, settings, active[i].id, nows[i])
    ensures forall i :: 0 <= i < |rows| ==> rows[i] == StandingOf(active[i], rows[i].position, settings)
  {
    seq(|active|, i requires 0 <= i < |active| =>
      StandingOf(active[i], RacerProgress(startTime, status, settings, active[i].id, nows[i]), settings))
  }

  function PlayersOf(rows: seq<Standing>): (players: seq<Player>)
    ensures |players| == |rows|
  {
    seq(|rows|, i requires 0 <= i < |rows| => rows[i].player)
  }

  predicate SortedByPosition(rows: seq<Standing>) {
    forall i, j :: 0 <= i < j < |rows| ==> rows[i].position >= rows[j].position
  }

  /** Inserts a row before the first row whose position is not larger. */
  function InsertByPosition(x: Standing, rows: seq<Standing>): (r: seq<Standing>)
    ensures |r| == |rows| + 1
    ensures multiset(r) == multiset(rows) + multiset{x}
  {
    if rows == [] || rows[0].position <= x.position then [x] + rows
    else
      assert rows == [rows[0]] + rows[1..];
      [rows[0]] + InsertByPosition(x, rows[1..])
  }

  /** No row of `rows` has a position above `b`. */
  predicate AllAtMost(rows: seq<Standing>, b: real) {
    forall j :: 0 <= j < |rows| ==> rows[j].position <= b
  }

  /** Inserting a row at or below a bound keeps every row at or below it. */
  lemma {:induction false} InsertKeepsBound(x: Standing, rows: seq<Standing>, b: real)
    requires AllAtMost(rows, b) && x.position <= b
    ensures AllAtMost(InsertByPosition(x, rows), b)
  {
    if rows != [] && rows[0].position > x.position {
      var tail := InsertByPosition(x, rows[1..]);
      InsertKeepsBound(x, rows[1..], b);
      ConsAtMost(rows[0], tail, b);
    }
  }

  lemma ConsAtMost(h: Standing, t: seq<Standing>, b: real)
    requires h.position <= b && AllAtMost(t, b)
    ensures AllAtMost([h] + t, b)
  {
  }

  /** A row placed before sorted rows that are all at or below it keeps
      them sorted. */
  lemma ConsSorted(h: Standing, t: seq<Standing>)
    requires SortedByPosition(t) && AllAtMost(t, h.position)
    ensures SortedByPosition([h] + t)
  {
  }

  lemma {:induction false} InsertKeepsSorted(x: Standing, rows: seq<Standing>)
    requires SortedByPosition(rows)
    ensures SortedByPosition(InsertByPosition(x, rows))
  {
    if rows == [] || rows[0].position <= x.position {
      ConsSorted(x, rows);
    } else {
      var tail := InsertByPosition(x, rows[1..]);
      InsertKeepsSorted(x, rows[1..]);
      InsertKeepsBound(x, rows[1..], rows[0].position);
      ConsSorted(rows[0], tail);
    }
  }

  lemma PlayersOfCons(h: Standing, t: seq<Standing>)
    ensures PlayersOf([h] + t) == [h.player] + PlayersOf(t)
  {
  }

  lemma {:induction false} InsertKeepsPlayers(x: Standing, rows: seq<Standing>)
    ensures multiset(PlayersOf(InsertByPosition(x, rows))) == multiset(PlayersOf(rows)) + multiset{x.player}
  {
    if rows == [] || rows[0].position <= x.position {
      PlayersOfCons(x, rows);
    } else {
      var tail := InsertByPosition(x, rows[1..]);
      InsertKeepsPlayers(x, rows[1..]);
      assert rows == [rows[0]] + rows[1..];
      PlayersOfCons(rows[0], rows[1..]);
      PlayersOfCons(rows[0], tail);
    }
  }

  /** Array.prototype.sort with the comparator `b.position - a.position`:
      a stable sort by position, largest first. */
  function SortByPosition(rows: seq<Standing>): (r: seq<Standing>)
    ensures |r| == |rows|
    ensures multiset(r) == multiset(rows)
    ensures SortedByPosition(r)
  {
    if rows == [] then []
    else
      var sortedTail := SortByPosition(rows[1..]);
      assert rows == [rows[0]] + rows[1..];
      InsertKeepsSorted(rows[0], sortedTail);
      InsertByPosition(rows[0], sortedTail)
  }

  /** The sort moves players with their rows: the same players come out. */
  lemma {:induction false} SortKeepsPlayers(rows: seq<Standing>)
    ensures multiset(PlayersOf(SortByPosition(rows))) == multiset(PlayersOf(rows))
  {
    if rows != [] {
      SortKeepsPlayers(rows[1..]);
      InsertKeepsPlayers(rows[0], SortByPosition(rows[1..]));
      assert rows == [rows[0]] + rows[1..];
      PlayersOfCons(rows[0], rows[1..]);
    }
  }

  /** The rows whose position is exactly `v`, in their order. */
  function AtPosition(rows: seq<Standing>, v: real): seq<Standing> {
    if rows == [] then []
    else (if rows[0].position == v then [rows[0]] else []) + AtPosition(rows[1..], v)
  }

  lemma AtPositionCons(x: Standing, rows: seq<Standing>, v: real)
    ensures AtPosition([x] + rows, v) == (if x.position == v then [x] else []) + AtPosition(rows, v)
  {
    assert ([x] + rows)[1..] == rows;
  }

  lemma {:induction false} InsertKeepsTies(x: Standing, rows: seq<Standing>, v: real)
    ensures AtPosition(InsertByPosition(x, rows), v) == AtPosition([x] + rows, v)
  {
    if rows != [] && rows[0].position > x.position {
      var head, rest := rows[0], rows[1..];
      var tail := InsertByPosition(x, rest);
      var h := if head.position == v then [head] else [];
      var xs := if x.position == v then [x] else [];
      var a := AtPosition(rest, v);
      assert InsertByPosition(x, rows) == [head] + tail;
      AtPositionCons(head, tail, v);
      InsertKeepsTies(x, rest, v);
      AtPositionCons(x, rest, v);
      assert AtPosition(InsertByPosition(x, rows), v) == h + (xs + a);
      assert AtPosition(rows, v) == h + a;
      AtPositionCons(x, rows, v);
      assert AtPosition([x] + rows, v) == xs + (h + a);
      SwapEmpty(h, xs, a);
    }
  }

  lemma SwapEmpty(h: seq<Standing>, xs: seq<Standing>, a: seq<Standing>)
    requires h == [] || xs == []
    ensures h + (xs + a) == xs + (h + a)
  {
    if h == [] {
      assert h + (xs + a) == xs + a == xs + (h + a);
    } else {
      assert h + (xs + a) == h + a == xs + (h + a);
    }
  }

  /** The sort is stable: rows with equal positions keep their relative
      order. */
  lemma {:induction false} SortIsStable(rows: seq<Standing>, v: real)
    ensures AtPosition(SortByPosition(rows), v) == AtPosition(rows, v)
  {
    if rows != [] {
      InsertKeepsTies(rows[0], SortByPosition(rows[1..]), v);
      SortIsStable(rows[1..], v);
      AtPositionCons(rows[0], SortByPosition(rows[1..]), v);
    }
  }

  /** A row's `finished` flag agrees with its position, which is at most 1. */
  predicate RowConsistent(r: Standing) {
    r.position <= 1.0 && (r.finished <==> r.position >= 1.0)
  }

  lemma StandingsConsistent(startTime: Option<int>, status: RaceStatus,
                            settings: map<PlayerId, RacerSetting>,
                            active: seq<Player>, nows: seq<int>)
    requires |nows| == |active|
    ensures forall r :: r in Standings(startTime, status, settings, active, nows) ==> RowConsistent(r)
  {
  }

  /** Every row of a permutation is a row of the original. */
  lemma PermutationKeeps(a: seq<Standing>, b: seq<Standing>, P: Standing -> bool)
    requires multiset(a) == multiset(b)
    requires forall r :: r in a ==> P(r)
    ensures forall r :: r in b ==> P(r)
  {
    forall r | r in b
      ensures P(r)
    {
      assert r in multiset(b);
    }
  }

  /** The leaderboard: one row per active racer, sorted by position, largest
      first, with ties in roster order. */
  function Leaderboard(startTime: Option<int>, status: RaceStatus,
                       settings: map<PlayerId, RacerSetting>,
                       active: seq<Player>, nows: seq<int>): (board: seq<Standing>)
    requires |nows| == |active|
    ensures |board| == |active|
    ensures multiset(PlayersOf(board)) == multiset(active)
    ensures multiset(board) == multiset(Standings(startTime, status, settings, active, nows))
    ensures SortedByPosition(board)
    ensures forall r :: r in board ==> RowConsistent(r)
  {
    var rows := Standings(startTime, status, settings, active, nows);
    assert PlayersOf(rows) == active;
    var board := SortByPosition(rows);
    SortKeepsPlayers(rows);
    StandingsConsistent(startTime, status, settings, active, nows);
    PermutationKeeps(rows, board, RowConsistent);
    board
  }

  /** Rows with equal positions appear in roster order. */
  lemma LeaderboardTiesInRosterOrder(startTime: Option<int>, status: RaceStatus,
                                     settings: map<PlayerId, RacerSetting>,
                                     active: seq<Player>, nows: seq<int>, v: real)
    requires |nows| == |active|
    ensures AtPosition(Leaderboard(startTime, status, settings, active, nows), v)
         == AtPosition(Standings(startTime, status, settings, active, nows), v)
  {
    SortIsStable(Standings(startTime, status, settings, active, nows), v);
  }

  lemma {:induction false} AtPositionAll(rows: seq<Standing>, v: real)
    requires forall i :: 0 <= i < |rows| ==> rows[i].position == v
    ensures AtPosition(rows, v) == rows
  {
    if rows != [] {
      AtPositionAll(rows[1..], v);
    }
  }

  /** While no race is running every row has position 0. */
  lemma StandingsBeforeRace(startTime: Option<int>, status: RaceStatus,
                            settings: map<PlayerId, RacerSetting>,
                            active: seq<Player>, nows: seq<int>)
    requires |nows| == |active|
    requires !StartTimeSet(startTime) || status != Racing
    ensures forall r :: r in Standings(startTime, status, settings, active, nows) ==> r.position == 0.0
  {
  }

  /** While no race is running every position is 0, so the leaderboard lists
      the active racers in roster order. */
  lemma LeaderboardBeforeRaceIsRosterOrder(startTime: Option<int>, status: RaceStatus,
                                           settings: map<PlayerId, RacerSetting>,
                                           active: seq<Player>, nows: seq<int>)
    requires |nows| == |active|
    requires !StartTimeSet(startTime) || status != Racing
    ensures Leaderboard(startTime, status, settings, active, nows)
         == Standings(startTime, status, settings, active, nows)
  {
    var rows := Standings(startTime, status, settings, active, nows);
    var board := Leaderboard(startTime, status, settings, active, nows);
    StandingsBeforeRace(startTime, status, settings, active, nows);
    PermutationKeeps(rows, board, (r: Standing) => r.position == 0.0);
    assert forall i :: 0 <= i < |board| ==> board[i].position == 0.0 by {
      forall i | 0 <= i < |board|
        ensures board[i].position == 0.0
      {
        assert board[i] in board;
      }
    }
    AtPositionAll(rows, 0.0);
    AtPositionAll(board, 0.0);
    LeaderboardTiesInRosterOrder(startTime, status, settings, active, nows, 0.0);
  }

  // ---------------------------------------------------------------------------
  // racer settings
  // ---------------------------------------------------------------------------

  const PlayerNamePrefix: string := "Игрок "

  /** `player.getProfile()?.name`, or "Игрок " and the first four characters
      of the id (the whole id when it is shorter). */
  function DisplayName(player: Player): (name: string)
    ensures name != ""
    ensures player.profileName != "" ==> name == player.profileName
    ensures player.profileName == "" ==>
      && PlayerNamePrefix <= name
      && name[|PlayerNamePrefix|..] <= player.id
      && |name| - |PlayerNamePrefix| == (if |player.id| < 4 then |player.id| else 4)
  {
    if player.profileName != "" then player.profileName
    else PlayerNamePrefix + player.id[..if |player.id| < 4 then |player.id| else 4]
  }

  /** The setting of one racer from one random draw `r`: a draw in [0, 1)
      gives a speed in [0.0005, 0.0008). */
  function SettingOf(player: Player, r: real): (setting: RacerSetting)
    ensures 0.0 <= r < 1.0 ==> BaseSpeed <= setting.speed < BaseSpeed + SpeedVariation
    ensures setting.name == DisplayName(player) && setting.name != ""
  {
    RacerSetting(BaseSpeed + r * SpeedVariation, DisplayName(player))
  }

  /** The settings object built by the initialisation loop: one entry per
      active racer, a later racer with the same id overwriting an earlier one. */
  function SettingsFor(active: seq<Player>, randoms: seq<real>): map<PlayerId, RacerSetting>
    requires |randoms| == |active|
  {
    if active == [] then map[]
    else
      var n := |active| - 1;
      SettingsFor(active[..n], randoms[..n])[active[n].id := SettingOf(active[n], randoms[n])]
  }

  /** One more step of the initialisation loop adds the next racer's entry. */
  lemma SettingsForStep(active: seq<Player>, randoms: seq<real>, i: nat)
    requires |randoms| == |active| && i < |active|
    ensures SettingsFor(active[..i + 1], randoms[..i + 1])
         == SettingsFor(active[..i], randoms[..i])[active[i].id := SettingOf(active[i], randoms[i])]
  {
    assert active[..i + 1][..i] == active[..i];
    assert randoms[..i + 1][..i] == randoms[..i];
  }

  /** Initialisation gives exactly the active racers an entry. */
  lemma {:induction false} SettingsForKeys(active: seq<Player>, randoms: seq<real>)
    requires |randoms| == |active|
    ensures SettingsFor(active, randoms).Keys == set p | p in active :: p.id
  {
    if active != [] {
      var n := |active| - 1;
      SettingsForKeys(active[..n], randoms[..n]);
      assert active == active[..n] + [active[n]];
      assert forall p :: p in active <==> p in active[..n] || p == active[n];
    }
  }

  /** A racer's entry is the setting drawn at its last place in the roster:
      a later racer with the same id overwrites an earlier one. */
  lemma {:induction false} SettingsForLastWins(active: seq<Player>, randoms: seq<real>, i: nat)
    requires |randoms| == |active| && i < |active|
    requires forall j :: i < j < |active| ==> active[j].id != active[i].id
    ensures active[i].id in SettingsFor(active, randoms)
    ensures SettingsFor(active, randoms)[active[i].id] == SettingOf(active[i], randoms[i])
    decreases |active|
  {
    var n := |active| - 1;
    if i < n {
      assert active[..n][i] == active[i] && randoms[..n][i] == randoms[i];
      assert forall j :: i < j < n ==> active[..n][j] == active[j];
      SettingsForLastWins(active[..n], randoms[..n], i);
    }
  }

  /** With every draw in [0, 1), every speed lies in [0.0005, 0.0008). */
  lemma {:induction false} SettingsForSpeeds(active: seq<Player>, randoms: seq<real>)
    requires |randoms| == |active|
    requires forall i :: 0 <= i < |randoms| ==> 0.0 <= randoms[i] < 1.0
    ensures forall id :: id in SettingsFor(active, randoms) ==>
      BaseSpeed <= SettingsFor(active, randoms)[id].speed < BaseSpeed + SpeedVariation
  {
    if active != [] {
      var n := |active| - 1;
      SettingsForSpeeds(active[..n], randoms[..n]);
    }
  }

  /** Once settings are initialised and a race is running, every active racer
      is strictly under way after the start instant. */
  lemma InitialisedRacersMove(active: seq<Player>, randoms: seq<real>, start: int, now: int, p: Player)
    requires |randoms| == |active|
    requires forall i :: 0 <= i < |randoms| ==> 0.0 <= randoms[i] < 1.0
    requires p in active && start != 0 && now > start
    ensures RacerProgress(Some(start), Racing, SettingsFor(active, randoms), p.id, now) > 0.0
  {
    var settings := SettingsFor(active, randoms);
    SettingsForKeys(active, randoms);
    assert p.id in settings;
    SettingsForSpeeds(active, randoms);
    ProgressPositiveAfterStart(start, settings, p.id, now);
  }

  /** A racer with a positive speed has positive progress after the start. */
  lemma ProgressPositiveAfterStart(start: int, settings: map<PlayerId, RacerSetting>,
                                   racerId: PlayerId, now: int)
    requires start != 0 && now > start
    requires racerId in settings && settings[racerId].speed > 0.0
    ensures RacerProgress(Some(start), Racing, settings, racerId, now) > 0.0
  {
    var v := settings[racerId].speed;
    var e := (now - start) as real;
    RouteCalculations.MulPositive(e, v);
    assert RacerProgress(Some(start), Racing, settings, racerId, now) == RouteCalculations.Min(e * v * ProgressScale, 1.0);
  }

  // ---------------------------------------------------------------------------
  // The shared race state and its host-gated transitions
  // ---------------------------------------------------------------------------

  /** The replicated race state this screen reads and, as host, writes. */
  class RaceSession {
    var status: RaceStatus
    var startTime: Option<int>
    var settings: map<PlayerId, RacerSetting>

    /** The store's initial values: waiting, no start time, no settings. */
    constructor ()
      ensures status == Waiting && startTime == None && settings == map[]
    {
      status := Waiting;
      startTime := None;
      settings := map[];
    }

    /** startRace: only the host, and only with at least one active racer,
        records the clock reading as start time and sets the race running.
        Settings are left as they are. */
    method StartRace(isHost: bool, active: seq<Player>, now: int)
      modifies this
      ensures if |active| == 0 || !isHost
        then status == old(status) && startTime == old(startTime)
        else status == Racing && startTime == Some(now)
      ensures settings == old(settings)
      ensures |active| > 0 && isHost && now != 0 ==>
        forall id :: RacerProgress(startTime, status, settings, id, now) == 0.0
    {
      if |active| == 0 || !isHost {
        return;
      }
      startTime := Some(now);
      status := Racing;
    }

    /** resetRace: only the host sets the race waiting and clears the start
        time; the settings are kept. Afterwards every progress is 0. */
    method ResetRace(isHost: bool)
      modifies this
      ensures if isHost
        then status == Waiting && startTime == None
        else status == old(status) && startTime == old(startTime)
      ensures settings == old(settings)
      ensures isHost ==> forall id, now :: RacerProgress(startTime, status, settings, id, now) == 0.0
    {
      if !isHost {
        return;
      }
      status := Waiting;
      startTime := None;
    }

    /** The host-only settings initialisation: when there are active racers,
        the route is non-empty, the caller is host and the settings map is
        empty, one setting per active racer is written, the i-th speed drawn
        from `randoms[i]`; a non-empty settings map is never replaced. */
    method InitializeSettings(isHost: bool, active: seq<Player>, route: seq<Coord>, randoms: seq<real>)
      requires |randoms| == |active|
      requires forall i :: 0 <= i < |randoms| ==> 0.0 <= randoms[i] < 1.0
      modifies this`settings
      ensures if |active| > 0 && route != [] && isHost && old(settings) == map[]
        then settings == SettingsFor(active, randoms)
        else settings == old(settings)
      ensures |active| > 0 && route != [] && isHost && old(settings) == map[] ==>
        && settings.Keys == (set p | p in active :: p.id)
        && forall id :: id in settings ==> BaseSpeed <= settings[id].speed < BaseSpeed + SpeedVariation
    {
      if |active| == 0 || route == [] || !isHost {
        return;
      }
      if |settings| == 0 {
        var built: map<PlayerId, RacerSetting> := map[];
        var i := 0;
        while i < |active|
          invariant 0 <= i <= |active|
          invariant built == SettingsFor(active[..i], randoms[..i])
        {
          SettingsForStep(active, randoms, i);
          built := built[active[i].id := SettingOf(active[i], randoms[i])];
          i := i + 1;
        }
        assert active[..i] == active && randoms[..i] == randoms;
        settings := built;
        SettingsForKeys(active, randoms);
        SettingsForSpeeds(active, randoms);
      }
    }
  }
}

=== FILE: records.dfy ===
/** Records shared by the lobby and the race screen: the peers of the
    multiplayer roster and the racer records from the racer catalogue. */
module Records {

  /** Peer identities are strings handed out by the roster service. */
  type PlayerId = string

  /** A connected peer. `profileName` is the display name of its profile;
      the empty string stands for a missing or empty name. */
  datatype Player = Player(id: PlayerId, profileName: string)

  /** A racer record as stored in the shared `racerChoices` map. The catalogue
      entries carry `id`, `name` and `color`; the race screen also looks at
      three optional flags, which are `false` when absent. */
  datatype Racer = Racer(
    id: int,
    name: string,
    color: string,
    selected: bool,
    isSelected: bool,
    racer: bool)
}

=== FILE: route_calculations.dfy ===
/** The route helpers of src/utils/routeCalculations.js that do not depend on
    the geometry library: the race-time estimate, percent-based interpolation
    along a sampled route, the route centre, and the thinning of a route
    (with the geometry library's distance passed in as a function). */
module RouteCalculations {

  import opened Wrappers
  import opened IntText

  /** The two components of a `[lng, lat]` pair: index 0 and index 1. */
  datatype Axis = Lng | Lat

  /** A route sample `[lng, lat]`. */
  datatype Coord = Coord(lng: real, lat: real) {
    function At(a: Axis): real {
      match a
      case Lng => lng
      case Lat => lat
    }
  }

  /** Default of `averageSpeed` (km/h) in calculateRaceTime. */
  const DefaultAverageSpeed: real := 35.0

  /** Default of `minDistanceKm` in optimizeRoute. */
  const DefaultMinDistanceKm: real := 0.01

  /** Map centre used when there are no coordinates (Moscow). */
  const DefaultCenter: Coord := Coord(37.6173, 55.7558)

  function Min(x: real, y: real): real {
    if x <= y then x else y
  }

  // ---------------------------------------------------------------------------
  // calculateRaceTime
  // ---------------------------------------------------------------------------

  /** The object calculateRaceTime returns. On the early return for a
      non-positive length, `hours` and `remainingMinutes` are absent. */
  datatype RaceTime = RaceTime(
    minutes: int,
    hours: Option<int>,
    remainingMinutes: Option<int>,
    formatted: string)

  const MinuteSuffix: string := "мин"
  const HourSeparator: string := "ч "

  /** JavaScript's Math.round: the nearest integer, halves rounded up. */
  function Round(x: real): (n: int)
    ensures x - 0.5 < n as real <= x + 0.5
  {
    (x + 0.5).Floor
  }

  /** JavaScript's `a % d` for a positive divisor: the remainder takes the
      sign of the dividend, so it is never negative for a non-negative `a` and
      never positive for a negative one. */
  function TruncRem(a: int, d: int): (r: int)
    requires d > 0
    ensures a >= 0 ==> 0 <= r < d && a / d * d + r == a
    ensures a < 0 ==> -d < r <= 0 && a == -((-a) / d) * d + r
  {
    if a >= 0 then a % d else -((-a) % d)
  }

  /** The estimated riding time of a route of `routeLength` km at
      `averageSpeed` km/h, in whole minutes, split into hours and minutes. */
  function CalculateRaceTime(routeLength: real, averageSpeed: real := DefaultAverageSpeed): (t: RaceTime)
    requires routeLength > 0.0 ==> averageSpeed != 0.0
    ensures routeLength <= 0.0 ==> t == RaceTime(0, None, None, "0 мин")
    ensures routeLength > 0.0 ==> t.hours.Some? && t.remainingMinutes.Some?
    ensures routeLength > 0.0 ==>
      var exact := routeLength / averageSpeed * 60.0;
      exact - 0.5 < t.minutes as real <= exact + 0.5
    ensures routeLength > 0.0 && averageSpeed > 0.0 ==>
      && t.minutes >= 0
      && t.hours.value * 60 + t.remainingMinutes.value == t.minutes
      && 0 <= t.remainingMinutes.value < 60
    ensures routeLength > 0.0 ==> (t.hours.value > 0 <==> 'ч' in t.formatted)
  {
    if routeLength <= 0.0 then RaceTime(0, None, None, "0 мин")
    else
      var minutes := Round(routeLength / averageSpeed * 60.0);
      RaceTime(minutes, Some(minutes / 60), Some(TruncRem(minutes, 60)), FormatMinutes(minutes))
  }

  /** The text of an estimate of `minutes` minutes: "Hч Mмин" with the whole
      hours and the remaining minutes when there is at least one hour, and
      "Mмин" otherwise. */
  function FormatMinutes(minutes: int): (s: string)
    ensures minutes / 60 > 0 <==> 'ч' in s
  {
    var hours := minutes / 60;
    if hours > 0 then
      var text := IntToText(hours) + HourSeparator + IntToText(TruncRem(minutes, 60)) + MinuteSuffix;
      assert text[|IntToText(hours)|] == 'ч';
      text
    else
      NoHourMark(minutes);
      IntToText(minutes) + MinuteSuffix
  }

  /** The text of a number followed by "мин" holds no hour mark. */
  lemma NoHourMark(m: int)
    ensures 'ч' !in IntToText(m) + MinuteSuffix
  {
    var digits := if m < 0 then NatText(-m) else NatText(m);
    var s := IntToText(m) + MinuteSuffix;
    forall i | 0 <= i < |s|
      ensures s[i] != 'ч'
    {
      if m < 0 && 0 < i <= |digits| {
        assert s[i] == digits[i - 1];
      }
    }
  }

  /** Position of the first `c` in `s`, or `|s|` when there is none. */
  function IndexOf(s: string, c: char): (k: nat)
    ensures k <= |s|
    ensures k < |s| ==> s[k] == c
  {
    if s == [] then 0 else if s[0] == c then 0 else 1 + IndexOf(s[1..], c)
  }

  /** Reads a duration written as "Hч Mмин" or as "Mмин" back into a number
      of minutes. Only the texts FormatMinutes writes for a non-negative
      number are accepted: H is at least 1, M is below 60 and neither has a
      leading zero; `None` for any other text. */
  function ReadDuration(s: string): Option<int> {
    if |s| < |MinuteSuffix| || s[|s| - |MinuteSuffix|..] != MinuteSuffix then None
    else ReadBody(s[..|s| - |MinuteSuffix|])
  }

  /** Reads the part before "мин": either "H" followed by "ч " and "M", or
      "M" alone. */
  function ReadBody(body: string): Option<int> {
    var k := IndexOf(body, 'ч');
    if k == |body| then ReadMinutes(body)
    else ReadHoursPart(body[..k], body[k + 1..])
  }

  /** Reads "H" and, after the hour mark, " M". */
  function ReadHoursPart(hours: string, rest: string): Option<int> {
    if rest == [] || rest[0] != ' ' then None
    else
      match (ReadNumber(hours), ReadMinutes(rest[1..]))
      case (Some(h), Some(m)) => if h > 0 then Some(h * 60 + m) else None
      case _ => None
  }

  /** Reads a number of minutes below an hour. */
  function ReadMinutes(s: string): Option<int> {
    match ReadNumber(s)
    case Some(m) => if m < 60 then Some(m) else None
    case None => None
  }

  /** Reads the decimal text of a natural number. */
  function ReadNumber(s: string): Option<int> {
    if IsNatText(s) then Some(ParseNat(s)) else None
  }

  /** Removing a known suffix gives back what came before it. */
  lemma SuffixSplit(body: string, suffix: string)
    ensures (body + suffix)[..|body|] == body
    ensures (body + suffix)[|body|..] == suffix
  {
  }

  /** A sequence is what comes before an element, the element, and what
      comes after it. */
  lemma SplitAround(s: string, k: nat)
    requires k < |s|
    ensures s == s[..k] + [s[k]] + s[k + 1..]
  {
  }

  /** A duration text is read by reading its body. */
  lemma ReadDurationOfBody(body: string)
    ensures ReadDuration(body + MinuteSuffix) == ReadBody(body)
  {
    SuffixSplit(body, MinuteSuffix);
  }

  /** The first hour mark after a run of digits is the one that ends it. */
  lemma {:induction false} IndexAfterDigits(digits: string, rest: string)
    requires AllDigits(digits) && rest != [] && rest[0] == 'ч'
    ensures IndexOf(digits + rest, 'ч') == |digits|
    decreases |digits|
  {
    if digits != [] {
      assert (digits + rest)[0] == digits[0];
      assert (digits + rest)[1..] == digits[1..] + rest;
      IndexAfterDigits(digits[1..], rest);
    }
  }

  /** A run of digits holds no hour mark. */
  lemma {:induction false} IndexInDigits(digits: string)
    requires AllDigits(digits)
    ensures IndexOf(digits, 'ч') == |digits|
    decreases |digits|
  {
    if digits != [] {
      IndexInDigits(digits[1..]);
    }
  }

  /** "Hч M" is read by reading "H" and " M" on either side of the mark. */
  lemma ReadBodyHoursAndMinutes(hs: string, ms: string)
    requires AllDigits(hs)
    ensures ReadBody(hs + HourSeparator + ms) == ReadHoursPart(hs, [' '] + ms)
  {
    var body := hs + HourSeparator + ms;
    assert body == hs + (HourSeparator + ms);
    IndexAfterDigits(hs, HourSeparator + ms);
    assert body[..|hs|] == hs;
    assert body[|hs| + 1..] == [' '] + ms;
  }

  /** Canonical "H" and "M" with H at least 1 and M below 60, written as
      "Hч Mмин", read as `H * 60 + M`. */
  lemma ReadHoursAndMinutesText(hs: string, ms: string)
    requires IsNatText(hs) && IsNatText(ms) && ParseNat(hs) > 0 && ParseNat(ms) < 60
    ensures ReadDuration(hs + HourSeparator + ms + MinuteSuffix) == Some(ParseNat(hs) * 60 + ParseNat(ms))
  {
    ReadDurationOfBody(hs + HourSeparator + ms);
    ReadBodyHoursAndMinutes(hs, ms);
    ReadHoursPartOf(hs, ms);
  }

  /** Canonical "H" with H at least 1 and " M" with M below 60 read as
      `H * 60 + M`. */
  lemma ReadHoursPartOf(hs: string, ms: string)
    requires IsNatText(hs) && IsNatText(ms) && ParseNat(hs) > 0 && ParseNat(ms) < 60
    ensures ReadHoursPart(hs, [' '] + ms) == Some(ParseNat(hs) * 60 + ParseNat(ms))
  {
    assert ([' '] + ms)[1..] == ms;
  }

  /** The "Mмин" form reads back as `m` minutes when `m` is below an hour. */
  lemma ReadMinutesOnly(m: nat)
    requires m < 60
    ensures ReadDuration(NatText(m) + MinuteSuffix) == Some(m)
  {
    var ms := NatText(m);
    ReadDurationOfBody(ms);
    IndexInDigits(ms);
    ParseNatText(m);
  }

  /** With at least one hour, the text is the whole hours, the hour mark and
      the minutes left over. */
  lemma FormatHoursAndMinutes(minutes: int)
    requires minutes >= 60
    ensures FormatMinutes(minutes) == NatText(minutes / 60) + HourSeparator + NatText(minutes % 60) + MinuteSuffix
  {
  }

  /** Under an hour, the text is the minutes alone. */
  lemma FormatMinutesOnly(m: nat)
    requires m < 60
    ensures FormatMinutes(m) == NatText(m) + MinuteSuffix
  {
  }

  /** The text of any non-negative number of minutes reads back as that
      number, in either of its two forms. */
  lemma FormatMinutesReadsBack(minutes: nat)
    ensures ReadDuration(FormatMinutes(minutes)) == Some(minutes)
  {
    if minutes >= 60 {
      LongFormatReadsBack(minutes);
    } else {
      ShortFormatReadsBack(minutes);
    }
  }

  lemma LongFormatReadsBack(minutes: nat)
    requires minutes >= 60
    ensures ReadDuration(FormatMinutes(minutes)) == Some(minutes)
  {
    var h, r := minutes / 60, minutes % 60;
    var hs, ms := NatText(h), NatText(r);
    assert IsNatText(hs) && ParseNat(hs) == h by { ParseNatText(h); }
    assert IsNatText(ms) && ParseNat(ms) == r by { ParseNatText(r); }
    assert ReadDuration(hs + HourSeparator + ms + MinuteSuffix) == Some(minutes) by {
      ReadHoursAndMinutesText(hs, ms);
    }
    assert FormatMinutes(minutes) == hs + HourSeparator + ms + MinuteSuffix by {
      FormatHoursAndMinutes(minutes);
    }
  }

  lemma ShortFormatReadsBack(minutes: nat)
    requires minutes < 60
    ensures ReadDuration(FormatMinutes(minutes)) == Some(minutes)
  {
    calc {
      ReadDuration(FormatMinutes(minutes));
      { FormatMinutesOnly(minutes); }
      ReadDuration(NatText(minutes) + MinuteSuffix);
      { ReadMinutesOnly(minutes); }
      Some(minutes);
    }
  }

  /** Canonical "H" and "M" with H at least 1 and M below 60 are the hours
      part FormatMinutes writes for the number they denote. */
  lemma FormattedFromParts(hs: string, ms: string, minutes: int)
    requires IsNatText(hs) && IsNatText(ms) && ParseNat(hs) > 0 && ParseNat(ms) < 60
    requires minutes == ParseNat(hs) * 60 + ParseNat(ms)
    ensures FormatMinutes(minutes) == hs + HourSeparator + ms + MinuteSuffix
  {
    NatTextOfParse(hs);
    NatTextOfParse(ms);
    assert minutes / 60 == ParseNat(hs) && minutes % 60 == ParseNat(ms);
    FormatHoursAndMinutes(minutes);
  }

  /** What the hours reader accepts: " M" after the mark, canonical H and M,
      at least one hour and less than one hour left over. */
  lemma ReadHoursPartAccepts(hs: string, rest: string, minutes: int)
    requires ReadHoursPart(hs, rest) == Some(minutes)
    ensures rest == [' '] + rest[1..]
    ensures IsNatText(hs) && IsNatText(rest[1..])
    ensures ParseNat(hs) > 0 && ParseNat(rest[1..]) < 60
    ensures minutes == ParseNat(hs) * 60 + ParseNat(rest[1..])
  {
  }

  /** An accepted "H" and " M" around the hour mark are the text
      FormatMinutes writes for the number read. */
  lemma ReadHoursPartOnlyFormatted(hs: string, rest: string, minutes: int)
    requires ReadHoursPart(hs, rest) == Some(minutes)
    ensures hs + ['ч'] + rest + MinuteSuffix == FormatMinutes(minutes)
  {
    ReadHoursPartAccepts(hs, rest, minutes);
    var ms := rest[1..];
    calc {
      hs + ['ч'] + rest + MinuteSuffix;
      { SeparatorJoin(hs, ms); }
      hs + HourSeparator + ms + MinuteSuffix;
      { FormattedFromParts(hs, ms, minutes); }
      FormatMinutes(minutes);
    }
  }

  /** The hour mark followed by " M" is the separator followed by "M". */
  lemma SeparatorJoin(hs: string, ms: string)
    ensures hs + ['ч'] + ([' '] + ms) == hs + HourSeparator + ms
  {
  }

  /** An accepted "M" is the text FormatMinutes writes for the number read. */
  lemma ReadMinutesOnlyFormatted(body: string, minutes: int)
    requires ReadMinutes(body) == Some(minutes)
    ensures body + MinuteSuffix == FormatMinutes(minutes)
  {
    NatTextOfParse(body);
    FormatMinutesOnly(minutes);
  }

  /** A body the reader accepts is the body FormatMinutes writes for the
      number read. */
  lemma ReadBodyOnlyFormatted(body: string, minutes: int)
    requires ReadBody(body) == Some(minutes)
    ensures body + MinuteSuffix == FormatMinutes(minutes)
  {
    var k := IndexOf(body, 'ч');
    if k == |body| {
      ReadMinutesOnlyFormatted(body, minutes);
    } else {
      ReadHoursPartOnlyFormatted(body[..k], body[k + 1..], minutes);
      SplitAround(body, k);
    }
  }

  /** A text the reader accepts is the text FormatMinutes writes for the
      number read, so that no two texts denote the same number of minutes. */
  lemma ReadDurationOnlyFormatted(s: string, minutes: int)
    requires ReadDuration(s) == Some(minutes)
    ensures s == FormatMinutes(minutes)
  {
    var body := s[..|s| - |MinuteSuffix|];
    assert s == body + MinuteSuffix;
    ReadBodyOnlyFormatted(body, minutes);
  }

  /** At the default speed of 35 km/h, a 35 km route takes exactly one hour,
      and a route of no length takes none, whatever the speed (no division
      happens then, so a speed of 0 is allowed). */
  lemma DefaultSpeedEstimates()
    ensures CalculateRaceTime(35.0) == RaceTime(60, Some(1), Some(0), "1ч 0мин")
    ensures CalculateRaceTime(0.0) == RaceTime(0, None, None, "0 мин")
    ensures CalculateRaceTime(-1.0, 0.0) == RaceTime(0, None, None, "0 мин")
  {
    assert Round(35.0 / DefaultAverageSpeed * 60.0) == 60;
    FormatHoursAndMinutes(60);
    assert NatText(1) == "1" && NatText(0) == "0";
  }

  /** For a positive length and speed the formatted estimate denotes exactly
      the number of minutes computed. */
  lemma FormattedRaceTimeReadsBack(routeLength: real, averageSpeed: real)
    requires routeLength > 0.0 && averageSpeed > 0.0
    ensures var t := CalculateRaceTime(routeLength, averageSpeed);
      ReadDuration(t.formatted) == Some(t.minutes)
  {
    var t := CalculateRaceTime(routeLength, averageSpeed);
    FormatMinutesReadsBack(t.minutes);
  }

  // ---------------------------------------------------------------------------
  // calculatePositionOnRoute
  // ---------------------------------------------------------------------------

  /** The fractional sample index `(min(progress, 100) / 100) * (len - 1)`. */
  function SegmentIndex(len: nat, progress: real): (x: real)
    requires len >= 1 && progress >= 0.0
    ensures 0.0 <= x <= (len - 1) as real
    ensures progress >= 100.0 ==> x == (len - 1) as real
  {
    var share := Min(progress, 100.0) / 100.0;
    var last := (len - 1) as real;
    MulNonNegative(share, last);
    MulNonNegative(1.0 - share, last);
    assert (1.0 - share) * last == last - share * last;
    share * last
  }

  /** True when `z` lies between `x` and `y`, whichever is larger. */
  predicate Between(x: real, y: real, z: real) {
    (x <= z <= y) || (y <= z <= x)
  }

  /** True when `c` lies in the box spanned by `a` and `b`. */
  predicate InBox(a: Coord, b: Coord, c: Coord) {
    Between(a.lng, b.lng, c.lng) && Between(a.lat, b.lat, c.lat)
  }

  /** `start + (end - start) * fraction`, one component at a time. */
  function Lerp(a: real, b: real, f: real): (z: real)
    ensures 0.0 <= f <= 1.0 ==> Between(a, b, z)
    ensures f == 0.0 ==> z == a
  {
    LerpBetween(a, b, f);
    a + (b - a) * f
  }

  /** A product of two non-negative reals is non-negative. */
  lemma MulNonNegative(x: real, y: real)
    requires x >= 0.0 && y >= 0.0
    ensures x * y >= 0.0
  {
  }

  /** A product of two positive reals is positive. */
  lemma MulPositive(x: real, y: real)
    requires x > 0.0 && y > 0.0
    ensures x * y > 0.0
  {
  }

  lemma LerpBetween(a: real, b: real, f: real)
    ensures 0.0 <= f <= 1.0 ==> Between(a, b, a + (b - a) * f)
  {
    if 0.0 <= f <= 1.0 {
      if a <= b {
        MulNonNegative(b - a, f);
        MulNonNegative(b - a, 1.0 - f);
        assert (b - a) * f + (b - a) * (1.0 - f) == b - a;
      } else {
        MulNonNegative(a - b, f);
        MulNonNegative(a - b, 1.0 - f);
        assert (a - b) * f + (a - b) * (1.0 - f) == a - b;
        assert (b - a) * f == -((a - b) * f);
      }
    }
  }

  /** The position at `progress` percent along the sampled route: `None` for
      an empty route or a negative progress, the last sample once the
      fractional index reaches the last index, and otherwise the linear
      interpolation between the two neighbouring samples. */
  function CalculatePositionOnRoute(route: seq<Coord>, progress: real): (r: Option<Coord>)
    ensures r.None? <==> route == [] || progress < 0.0
    ensures route != [] && progress >= 100.0 ==> r == Some(route[|route| - 1])
    ensures |route| == 1 && progress >= 0.0 ==> r == Some(route[0])
    ensures r.Some? ==>
      var x := SegmentIndex(|route|, progress);
      var i := x.Floor;
      && 0 <= i <= |route| - 1
      && (i == |route| - 1 ==> r.value == route[|route| - 1])
      && (i < |route| - 1 ==> InBox(route[i], route[i + 1], r.value))
      && (x == i as real ==> r.value == route[i])
  {
    if route == [] || progress < 0.0 then None
    else
      var segmentIndex := SegmentIndex(|route|, progress);
      var index := segmentIndex.Floor;
      var fraction := segmentIndex - index as real;
      if index >= |route| - 1 then Some(route[|route| - 1])
      else
        var start := route[index];
        var end := route[index + 1];
        Some(Coord(Lerp(start.lng, end.lng, fraction), Lerp(start.lat, end.lat, fraction)))
  }

  /** Interpolation passes exactly through every sample: the progress that
      puts the fractional index on sample `k` yields that sample. */
  lemma SamplesAreHit(route: seq<Coord>, k: nat)
    requires |route| >= 2 && k < |route|
    ensures CalculatePositionOnRoute(route, 100.0 * k as real / (|route| - 1) as real) == Some(route[k])
  {
    var n := (|route| - 1) as real;
    var p := 100.0 * k as real / n;
    assert p * n == 100.0 * k as real;
    assert p <= 100.0 by {
      assert k as real <= n;
    }
    assert SegmentIndex(|route|, p) == k as real by {
      assert Min(p, 100.0) == p;
      assert p / 100.0 * n == k as real;
    }
  }

  /** Between two neighbouring samples the position moves linearly: the
      progress that puts the fractional index at `k + t`, for `t` in [0, 1),
      yields `route[k] + (route[k + 1] - route[k]) * t`. */
  lemma InterpolatesBetweenSamples(route: seq<Coord>, k: nat, t: real)
    requires |route| >= 2 && k < |route| - 1 && 0.0 <= t < 1.0
    ensures CalculatePositionOnRoute(route, 100.0 * (k as real + t) / (|route| - 1) as real)
         == Some(Coord(Lerp(route[k].lng, route[k + 1].lng, t), Lerp(route[k].lat, route[k + 1].lat, t)))
  {
    var n := (|route| - 1) as real;
    var p := 100.0 * (k as real + t) / n;
    assert p * n == 100.0 * (k as real + t);
    assert 0.0 <= p <= 100.0 by {
      assert k as real + t <= n;
    }
    assert SegmentIndex(|route|, p) == k as real + t by {
      assert Min(p, 100.0) == p;
      assert p / 100.0 * n == k as real + t;
    }
    assert (k as real + t).Floor == k;
  }

  // ---------------------------------------------------------------------------
  // calculateRouteCenter
  // ---------------------------------------------------------------------------

  /** `coordinates.reduce((sum, coord) => sum + coord[axis], 0)`. */
  function SumAlong(s: seq<Coord>, a: Axis): real {
    if s == [] then 0.0 else SumAlong(s[..|s| - 1], a) + s[|s| - 1].At(a)
  }

  /** The coordinate-wise mean of the route, or the default centre for no
      coordinates. */
  function CalculateRouteCenter(coords: seq<Coord>): (c: Coord)
    ensures coords == [] ==> c == DefaultCenter
    ensures |coords| == 1 ==> c == coords[0]
  {
    if coords == [] then DefaultCenter
    else
      var n := |coords| as real;
      assert |coords| == 1 ==> coords[..0] == [] && SumAlong(coords, Lng) == coords[0].lng
                               && SumAlong(coords, Lat) == coords[0].lat;
      Coord(SumAlong(coords, Lng) / n, SumAlong(coords, Lat) / n)
  }

  /** A sum of `|s|` components that all lie in `[lo, hi]` lies between
      `|s| * lo` and `|s| * hi`. */
  lemma {:induction false} SumAlongBounds(s: seq<Coord>, a: Axis, lo: real, hi: real)
    requires forall i :: 0 <= i < |s| ==> lo <= s[i].At(a) <= hi
    ensures |s| as real * lo <= SumAlong(s, a) <= |s| as real * hi
  {
    if s != [] {
      SumAlongBounds(s[..|s| - 1], a, lo, hi);
    }
  }

  /** The centre of a non-empty route lies inside every band that holds all
      of its points, on each axis: it is within the inputs' minimum and
      maximum. */
  lemma CenterWithinBounds(coords: seq<Coord>, a: Axis, lo: real, hi: real)
    requires coords != []
    requires forall i :: 0 <= i < |coords| ==> lo <= coords[i].At(a) <= hi
    ensures lo <= CalculateRouteCenter(coords).At(a) <= hi
  {
    SumAlongBounds(coords, a, lo, hi);
    assert CalculateRouteCenter(coords).At(a) == SumAlong(coords, a) / |coords| as real;
    MeanWithin(SumAlong(coords, a), |coords| as real, lo, hi);
  }

  /** The centre of two points is their midpoint. */
  lemma CenterOfTwoPoints(a: Coord, b: Coord)
    ensures CalculateRouteCenter([a, b]) == Coord((a.lng + b.lng) / 2.0, (a.lat + b.lat) / 2.0)
  {
    assert [a, b][..1] == [a];
    assert [a][..0] == [];
    assert SumAlong([a], Lng) == SumAlong([], Lng) + a.lng;
    assert SumAlong([a], Lat) == SumAlong([], Lat) + a.lat;
    assert SumAlong([a, b], Lng) == SumAlong([a], Lng) + b.lng;
    assert SumAlong([a, b], Lat) == SumAlong([a], Lat) + b.lat;
  }

  /** Adding a point moves the centre as a running mean does: the old centre
      weighted by the old count, plus the new point, over the new count. With
      the single-point case this fixes the centre of every route as the mean. */
  lemma CenterAddPoint(s: seq<Coord>, p: Coord, a: Axis)
    requires s != []
    ensures CalculateRouteCenter(s + [p]).At(a)
         == (|s| as real * CalculateRouteCenter(s).At(a) + p.At(a)) / (|s| + 1) as real
  {
    assert (s + [p])[..|s + [p]| - 1] == s;
    var n := |s| as real;
    assert CalculateRouteCenter(s).At(a) == SumAlong(s, a) / n;
    assert n * (SumAlong(s, a) / n) == SumAlong(s, a);
  }

  /** Summing a concatenation sums its parts. */
  lemma {:induction false} SumAlongAppend(s: seq<Coord>, t: seq<Coord>, a: Axis)
    ensures SumAlong(s + t, a) == SumAlong(s, a) + SumAlong(t, a)
  {
    if t != [] {
      assert (s + t)[..|s + t| - 1] == s + t[..|t| - 1];
      SumAlongAppend(s, t[..|t| - 1], a);
    } else {
      assert s + t == s;
    }
  }

  /** Removing the point at index `j` removes its component from the sum. */
  lemma SumAlongRemove(s: seq<Coord>, j: nat, a: Axis)
    requires j < |s|
    ensures SumAlong(s, a) == SumAlong(s[..j] + s[j + 1..], a) + s[j].At(a)
  {
    assert s == s[..j] + ([s[j]] + s[j + 1..]);
    SumAlongAppend(s[..j], [s[j]] + s[j + 1..], a);
    SumAlongAppend([s[j]], s[j + 1..], a);
    SumAlongAppend(s[..j], s[j + 1..], a);
    assert [s[j]][..0] == [];
  }

  /** Removing the element at index `j` removes one copy of it from the
      multiset. */
  lemma MultisetRemove(t: seq<Coord>, j: nat)
    requires j < |t|
    ensures multiset(t[..j] + t[j + 1..]) == multiset(t) - multiset{t[j]}
  {
    assert t == t[..j] + [t[j]] + t[j + 1..];
  }

  /** The sum does not depend on the order of the points. */
  lemma {:induction false} SumAlongPermutation(s: seq<Coord>, t: seq<Coord>, a: Axis)
    requires multiset(s) == multiset(t)
    ensures SumAlong(s, a) == SumAlong(t, a)
    decreases |s|
  {
    if s != [] {
      var x := s[|s| - 1];
      assert x in multiset(t);
      var j :| 0 <= j < |t| && t[j] == x;
      var init, rest := s[..|s| - 1], t[..j] + t[j + 1..];
      MultisetRemove(s, |s| - 1);
      MultisetRemove(t, j);
      assert s[..|s| - 1] + s[|s|..] == init;
      SumAlongPermutation(init, rest, a);
      SumAlongRemove(t, j, a);
      assert SumAlong(s, a) == SumAlong(init, a) + x.At(a);
    } else {
      assert |t| == |multiset(t)| == 0;
    }
  }

  /** The centre does not depend on the order of the points: it is the mean
      of the multiset of points. */
  lemma CenterIgnoresOrder(s: seq<Coord>, t: seq<Coord>)
    requires multiset(s) == multiset(t)
    ensures CalculateRouteCenter(s) == CalculateRouteCenter(t)
  {
    assert |s| == |multiset(s)| == |multiset(t)| == |t|;
    SumAlongPermutation(s, t, Lng);
    SumAlongPermutation(s, t, Lat);
  }

  /** A sum between `n * lo` and `n * hi` has its mean between `lo` and `hi`. */
  lemma MeanWithin(sum: real, n: real, lo: real, hi: real)
    requires n > 0.0 && n * lo <= sum <= n * hi
    ensures lo <= sum / n <= hi
  {
    var c := sum / n;
    assert c * n == sum;
    if c < lo {
      MulPositive(lo - c, n);
      assert false;
    }
    if c > hi {
      MulPositive(c - hi, n);
      assert false;
    }
  }

  // ---------------------------------------------------------------------------
  // optimizeRoute
  // ---------------------------------------------------------------------------

  /** The `optimized` list after the loop has looked at the interior points
      below index `n`: the first point, then every interior point whose
      distance from the last point kept so far is at least `minDistanceKm`. */
  function Kept(coords: seq<Coord>, n: nat, minDistanceKm: real,
                distance: (Coord, Coord) -> real): (kept: seq<Coord>)
    requires 1 <= n <= |coords|
    ensures 1 <= |kept| <= n && kept[0] == coords[0]
    decreases n
  {
    if n == 1 then [coords[0]]
    else
      var before := Kept(coords, n - 1, minDistanceKm, distance);
      if distance(before[|before| - 1], coords[n - 1]) >= minDistanceKm
      then before + [coords[n - 1]]
      else before
  }

  /** The route optimizeRoute returns, as a reference definition. */
  function Optimized(coords: seq<Coord>, minDistanceKm: real,
                     distance: (Coord, Coord) -> real): seq<Coord>
  {
    if |coords| < 2 then coords
    else Kept(coords, |coords| - 1, minDistanceKm, distance) + [coords[|coords| - 1]]
  }

  /** `sub` is the subsequence of `s` at the increasing positions `idx`. */
  ghost predicate SubsequenceAt(sub: seq<Coord>, s: seq<Coord>, idx: seq<int>) {
    && |idx| == |sub|
    && (forall k :: 0 <= k < |idx| ==> 0 <= idx[k] < |s| && sub[k] == s[idx[k]])
    && (forall k :: 0 < k < |idx| ==> idx[k - 1] < idx[k])
  }

  /** The input positions of the points kept so far. */
  ghost function KeptIndices(coords: seq<Coord>, n: nat, minDistanceKm: real,
                             distance: (Coord, Coord) -> real): seq<int>
    requires 1 <= n <= |coords|
    decreases n
  {
    if n == 1 then [0]
    else
      var kept := Kept(coords, n - 1, minDistanceKm, distance);
      var before := KeptIndices(coords, n - 1, minDistanceKm, distance);
      if distance(kept[|kept| - 1], coords[n - 1]) >= minDistanceKm
      then before + [n - 1]
      else before
  }

  /** The positions of the points kept so far are all below `n`. */
  lemma {:induction false} KeptIndicesBelow(coords: seq<Coord>, n: nat, minDistanceKm: real,
                                           distance: (Coord, Coord) -> real)
    requires 1 <= n <= |coords|
    ensures forall k :: 0 <= k < |KeptIndices(coords, n, minDistanceKm, distance)| ==>
      KeptIndices(coords, n, minDistanceKm, distance)[k] < n
    decreases n
  {
    if n > 1 {
      KeptIndicesBelow(coords, n - 1, minDistanceKm, distance);
      var before := KeptIndices(coords, n - 1, minDistanceKm, distance);
      var idx := KeptIndices(coords, n, minDistanceKm, distance);
      assert idx == before || idx == before + [n - 1];
      forall k | 0 <= k < |idx|
        ensures idx[k] < n
      {
        if k < |before| {
          assert idx[k] == before[k];
        }
      }
    }
  }

  /** The kept points sit at the increasing input positions `KeptIndices`,
      all below `n`. */
  lemma {:induction false} KeptIsSubsequence(coords: seq<Coord>, n: nat, minDistanceKm: real,
                                            distance: (Coord, Coord) -> real)
    requires 1 <= n <= |coords|
    ensures SubsequenceAt(Kept(coords, n, minDistanceKm, distance), coords,
                          KeptIndices(coords, n, minDistanceKm, distance))
    ensures forall k :: 0 <= k < |KeptIndices(coords, n, minDistanceKm, distance)| ==>
      KeptIndices(coords, n, minDistanceKm, distance)[k] < n
    decreases n
  {
    KeptIndicesBelow(coords, n, minDistanceKm, distance);
    if n > 1 {
      KeptIsSubsequence(coords, n - 1, minDistanceKm, distance);
      var kept := Kept(coords, n - 1, minDistanceKm, distance);
      var before := KeptIndices(coords, n - 1, minDistanceKm, distance);
      if distance(kept[|kept| - 1], coords[n - 1]) >= minDistanceKm {
        AppendKeepsSubsequence(kept, coords, before, n - 1);
        assert Kept(coords, n, minDistanceKm, distance) == kept + [coords[n - 1]];
        assert KeptIndices(coords, n, minDistanceKm, distance) == before + [n - 1];
      } else {
        assert Kept(coords, n, minDistanceKm, distance) == kept;
        assert KeptIndices(coords, n, minDistanceKm, distance) == before;
      }
    }
  }

  /** Appending the point at a position beyond all used ones extends a
      subsequence. */
  lemma AppendKeepsSubsequence(sub: seq<Coord>, s: seq<Coord>, idx: seq<int>, j: int)
    requires SubsequenceAt(sub, s, idx)
    requires 0 <= j < |s|
    requires forall k :: 0 <= k < |idx| ==> idx[k] < j
    ensures SubsequenceAt(sub + [s[j]], s, idx + [j])
  {
  }

  /** Consecutive points of `s` are at least `minDistanceKm` apart. */
  predicate Spaced(s: seq<Coord>, minDistanceKm: real, distance: (Coord, Coord) -> real) {
    forall k :: 1 <= k < |s| ==> distance(s[k - 1], s[k]) >= minDistanceKm
  }

  /** Consecutive kept points are at least `minDistanceKm` apart. */
  lemma {:induction false} KeptSpacing(coords: seq<Coord>, n: nat, minDistanceKm: real,
                                      distance: (Coord, Coord) -> real)
    requires 1 <= n <= |coords|
    ensures Spaced(Kept(coords, n, minDistanceKm, distance), minDistanceKm, distance)
    decreases n
  {
    if n > 1 {
      var before := Kept(coords, n - 1, minDistanceKm, distance);
      KeptSpacing(coords, n - 1, minDistanceKm, distance);
      if distance(before[|before| - 1], coords[n - 1]) >= minDistanceKm {
        AppendKeepsSpacing(before, coords[n - 1], minDistanceKm, distance);
      }
    }
  }

  /** Appending a point far enough from the last one keeps a route spaced. */
  lemma AppendKeepsSpacing(s: seq<Coord>, c: Coord, minDistanceKm: real,
                           distance: (Coord, Coord) -> real)
    requires s != [] && Spaced(s, minDistanceKm, distance)
    requires distance(s[|s| - 1], c) >= minDistanceKm
    ensures Spaced(s + [c], minDistanceKm, distance)
  {
    var t := s + [c];
    forall k | 1 <= k < |t|
      ensures distance(t[k - 1], t[k]) >= minDistanceKm
    {
      if k < |s| {
        assert t[k - 1] == s[k - 1] && t[k] == s[k];
      }
    }
  }

  /** A route of two or more points keeps its first and last point. */
  lemma OptimizedKeepsEnds(coords: seq<Coord>, minDistanceKm: real,
                           distance: (Coord, Coord) -> real)
    requires |coords| >= 2
    ensures var r := Optimized(coords, minDistanceKm, distance);
      |r| >= 2 && r[0] == coords[0] && r[|r| - 1] == coords[|coords| - 1]
  {
    var kept := Kept(coords, |coords| - 1, minDistanceKm, distance);
    var r := Optimized(coords, minDistanceKm, distance);
    assert r == kept + [coords[|coords| - 1]];
    assert r[0] == kept[0];
  }

  /** The result is the input with some interior points removed, in the same
      order. */
  lemma OptimizedIsSubsequence(coords: seq<Coord>, minDistanceKm: real,
                               distance: (Coord, Coord) -> real)
    ensures exists idx :: SubsequenceAt(Optimized(coords, minDistanceKm, distance), coords, idx)
  {
    if |coords| < 2 {
      var idx := seq(|coords|, k => k);
      assert SubsequenceAt(coords, coords, idx);
      assert SubsequenceAt(Optimized(coords, minDistanceKm, distance), coords, idx);
    } else {
      OptimizedAtKeptIndices(coords, minDistanceKm, distance);
    }
  }

  /** For two or more points, the result holds the input points at the kept
      interior positions followed by the last point. */
  lemma OptimizedAtKeptIndices(coords: seq<Coord>, minDistanceKm: real,
                               distance: (Coord, Coord) -> real)
    requires |coords| >= 2
    ensures var n := |coords| - 1;
      SubsequenceAt(Optimized(coords, minDistanceKm, distance), coords,
                    KeptIndices(coords, n, minDistanceKm, distance) + [n])
  {
    var n := |coords| - 1;
    var kept := Kept(coords, n, minDistanceKm, distance);
    var before := KeptIndices(coords, n, minDistanceKm, distance);
    KeptIsSubsequence(coords, n, minDistanceKm, distance);
    AppendKeepsSubsequence(kept, coords, before, n);
    assert Optimized(coords, minDistanceKm, distance) == kept + [coords[n]];
  }

  /** Every kept point other than the last one is at least `minDistanceKm`
      from the point kept before it; the last point is kept however close it
      is. */
  lemma OptimizedSpacing(coords: seq<Coord>, minDistanceKm: real,
                         distance: (Coord, Coord) -> real)
    requires |coords| >= 2
    ensures var r := Optimized(coords, minDistanceKm, distance);
      Spaced(r[..|r| - 1], minDistanceKm, distance)
  {
    var kept := Kept(coords, |coords| - 1, minDistanceKm, distance);
    var r := Optimized(coords, minDistanceKm, distance);
    assert r == kept + [coords[|coords| - 1]];
    assert r[..|r| - 1] == kept;
    KeptSpacing(coords, |coords| - 1, minDistanceKm, distance);
  }

  /** Whether interior point `i` is kept is decided once, when the loop
      reaches it, and later points never change it: it is kept exactly when
      it is at least `minDistanceKm` from the last point kept before it. */
  lemma {:induction false} KeptIndicesSettled(coords: seq<Coord>, n: nat, i: nat, minDistanceKm: real,
                                             distance: (Coord, Coord) -> real)
    requires 1 <= i < n <= |coords|
    ensures var kept := Kept(coords, i, minDistanceKm, distance);
      i in KeptIndices(coords, n, minDistanceKm, distance)
      <==> distance(kept[|kept| - 1], coords[i]) >= minDistanceKm
    decreases n
  {
    if n > i + 1 {
      KeptIndicesSettled(coords, n - 1, i, minDistanceKm, distance);
    } else {
      KeptIndicesDecision(coords, i, minDistanceKm, distance);
    }
  }

  /** Interior point `i` is kept exactly when the loop reaches it: when it
      is at least `minDistanceKm` from the last point kept before it. */
  lemma KeptIndicesDecision(coords: seq<Coord>, i: nat, minDistanceKm: real,
                            distance: (Coord, Coord) -> real)
    requires 1 <= i < |coords|
    ensures var kept := Kept(coords, i, minDistanceKm, distance);
      i in KeptIndices(coords, i + 1, minDistanceKm, distance)
      <==> distance(kept[|kept| - 1], coords[i]) >= minDistanceKm
  {
    KeptIsSubsequence(coords, i, minDistanceKm, distance);
    var before := KeptIndices(coords, i, minDistanceKm, distance);
    assert i !in before;
  }

  /** The result holds the input points at the positions KeptIndices, and
      interior point `i` is among them if and only if it lies at least
      `minDistanceKm` from the last point kept before it: the points dropped
      are exactly the close ones. */
  lemma OptimizedDropsExactlyClosePoints(coords: seq<Coord>, i: nat, minDistanceKm: real,
                                         distance: (Coord, Coord) -> real)
    requires 1 <= i < |coords| - 1
    ensures var n := |coords| - 1;
      SubsequenceAt(Optimized(coords, minDistanceKm, distance), coords,
                    KeptIndices(coords, n, minDistanceKm, distance) + [n])
    ensures var kept := Kept(coords, i, minDistanceKm, distance);
      i in KeptIndices(coords, |coords| - 1, minDistanceKm, distance)
      <==> distance(kept[|kept| - 1], coords[i]) >= minDistanceKm
  {
    OptimizedAtKeptIndices(coords, minDistanceKm, distance);
    KeptIndicesSettled(coords, |coords| - 1, i, minDistanceKm, distance);
  }

  /** Drops the interior points that lie closer than `minDistanceKm` to the
      previously kept point; the first and last points are always kept. */
  method OptimizeRoute(coords: seq<Coord>, distance: (Coord, Coord) -> real,
                       minDistanceKm: real := DefaultMinDistanceKm)
    returns (optimized: seq<Coord>)
    ensures optimized == Optimized(coords, minDistanceKm, distance)
  {
    if |coords| < 2 {
      return coords;
    }
    optimized := [coords[0]];
    var i := 1;
    while i < |coords| - 1
      invariant 1 <= i <= |coords| - 1
      invariant optimized == Kept(coords, i, minDistanceKm, distance)
    {
      if distance(optimized[|optimized| - 1], coords[i]) >= minDistanceKm {
        optimized := optimized + [coords[i]];
      }
      i := i + 1;
    }
    optimized := optimized + [coords[|coords| - 1]];
  }
}

=== FILE: wrappers.dfy ===
/** The optional value used wherever the source returns `null` or reads a
    value that may be absent. */
module Wrappers {

  datatype Option<+T> = None | Some(value: T)
}
